=== FILE: README.md ===
# Equation solver core, modelled in Dafny

This project models the core of the equation solver in
`equation_solver/tools/structures.py`. The solver handles sets of linear
equations of the form `symbol = c1 + c2 + ... + u1 + u2 + ...`.

- **`Equation.from_string`** parses one line. It strips the line and splits
  it on single spaces. The first piece is the symbol. All-digit pieces are
  summed into the constant and all-letter pieces become unknowns. Every
  other piece is skipped.
- **`Equation.solve_equation`** evaluates one equation against a map of
  known values. It raises `EquationError` when an unknown has no value.
- **`SetEquations`** solves a set of equations keyed by symbol:
  - A memoised recursive cost pass (`_compute_symbol_cost`,
    `_compute_all_symbols_cost`) fills the cost cache `_symbol_cost`.
  - That cache is then rebuilt in stable ascending order of cost.
  - `solve_eq_set` walks the cache in that order and evaluates every
    symbol against the values found so far.
  - The string part of `from_txt` turns a text into such a set.

Modules, one file each:

| file | module | contents |
|---|---|---|
| `text.dfy` | `Text` | `str.strip`, `str.split(sep)`, `sep.join`, ASCII digit, letter and space classes, decimal numerals |
| `sums.dfy` | `Sums` | sums over a finite set of symbols, independent of the walk order |
| `equations.dfy` | `Equations` | the `Equation` record, errors, the parser, `solve_equation` |
| `sorting.dfy` | `Sorting` | the stable sort by cost used on the cache |
| `dependencies.dfy` | `Dependencies` | acyclicity as a rank map, closedness, the cost definition |
| `cost_cache.dfy` | `CostCaches` | `_symbol_cost` as an insertion-ordered dict, and the invariant of the cost pass |
| `solutions.dfy` | `Solutions` | the value of every symbol, and what a solution of a set is |
| `set_equations.dfy` | `SetEquations` | the cost pass, the sort of the cache, `solve_eq_set` |
| `loading.dfy` | `Loading` | the line-splitting part of `from_txt` |
| `examples.dfy` | `Examples` | the worked examples of `equation_solver/test/test_equation_tools.py` |

How the program's features are represented:

- **Raised exceptions** become a `Result` whose `Failure` carries an
  `Error`:
  - `MissingUnknowns` is the `EquationError` of `solve_equation`.
  - `UndeclaredSymbol` is the `KeyError` raised when a symbol has no
    equation.
- **Acyclicity** is stated by a ghost `rank` map that strictly decreases
  along every dependency edge. It only appears in proofs. The recursive
  definitions `Cost` and `Value` decrease on it.
- **The cost cache** is a pair: the sequence of keys in insertion order,
  and the map from key to cost. This pair models a Python `dict`, whose
  iteration order is insertion order.
- **Walk order.** Python walks a `dict` in insertion order, and a `set` in
  an order the program does not fix.
  - The unknowns of an equation are a `set`. The model picks them with
    `:|`, so every result is proved for every order of that walk.
  - The symbols of the mapping are the keys of a `dict`. The model takes
    their order as a sequence `symbols` and walks it in order. After
    `from_txt`, that order is the order in which the symbols are first
    declared (`Loading.DeclarationOrder`).
  - The order in which `_symbol_cost` is filled comes from the walk of the
    symbols together with the walk of each equation's unknowns. Each turn
    of the walk writes exactly the keys, not yet cached, that its symbol is
    the first to reach, and turns never interleave. Within one turn the
    program writes depth first: a symbol goes in right after the keys of
    its first unknown, and which unknown is first is a `set` order the
    program does not fix. The model leaves the order within a turn open.
    The stable sort keeps the fill order among symbols of equal cost, so
    ties written in the same turn can come out in either order. The
    returned solutions follow the sorted cache.

## Model

| member | source | states |
|---|---|---|
| Text.Strip | equation_solver/tools/structures.py:40 | the result is the line with whitespace removed from both ends only, and it neither starts nor ends with whitespace |
| Text.Split | equation_solver/tools/structures.py:40 | splitting on one separator yields at least one piece, and no piece holds the separator |
| Text.JoinSplit | equation_solver/tools/structures.py:40 | joining the pieces back with the separator restores the input exactly |
| Text.SplitJoin | equation_solver/tools/structures.py:98 | pieces free of the separator are recovered exactly by splitting their join |
| Text.NumeralRoundTrip | equation_solver/tools/structures.py:48-49 | `int()` of the decimal numeral of `n` is `n`, and the numeral is all digits |
| Equations.FromString | equation_solver/tools/structures.py:29-52 | the parsed symbol holds no space, the constant is non-negative, and every unknown is an all-letter token |
| Equations.ClassifiedUnknowns | equation_solver/tools/structures.py:46-51 | a token is an unknown exactly when it is one of the right-hand-side tokens and is all letters |
| Equations.ClassifyConcat | equation_solver/tools/structures.py:46-51 | classifying a concatenation unions the unknowns and adds the constants, so token order does not matter |
| Equations.TokenInserted | equation_solver/tools/structures.py:44-51 | one more token after the symbol leaves the first piece as the symbol; a numeric token adds its value to the constant; an alphabetic token joins the unknowns; any other token (`=`, `+`, `""`) changes nothing |
| Equations.EmptyTokenIgnored | equation_solver/tools/structures.py:47 | an empty piece from a doubled space leaves the parsed equation unchanged |
| Equations.ExtraSpaceIgnored | equation_solver/tools/structures.py:40-52 | writing two spaces where a line has one gives the same equation |
| Equations.FormatRoundTrip | equation_solver/tools/structures.py:29-52 | parsing `symbol = c + v1 + v2 ...` gives back that symbol, the set of the `vi` and the constant `c` |
| Equations.SolveEquation | equation_solver/tools/structures.py:54-76 | fails exactly when some unknown is not a supplied key, with the equation and the supplied keys in the error; otherwise returns the constant plus the supplied values of the unknowns, so extra keys have no effect |
| Sums.SumOfRemove | equation_solver/tools/structures.py:72-76 | a sum over a set does not depend on the element taken first |
| Sums.SumOfAgree | equation_solver/tools/structures.py:73-75 | a sum reads the map only at the keys it sums |
| Dependencies.ClosedIffClosedFromAll | equation_solver/tools/structures.py:168 | every unknown of the set has its own equation exactly when every symbol reaches only declared symbols |
| Dependencies.CostOrdersDependencies | equation_solver/tools/structures.py:168-176 | costs are non-negative; a cost is 0 exactly when the equation has no unknowns; every unknown costs strictly less than the symbol that uses it |
| CostCaches.Store | equation_solver/tools/structures.py:169-175 | writing a key keeps the position of an existing key and appends a new key; only that entry changes |
| CostCaches.SummedStep | equation_solver/tools/structures.py:174 | adding one more unknown to the running total adds its cost plus one |
| CostCaches.SortCache | equation_solver/tools/structures.py:152 | rebuilding the cache keeps every entry, and its order is the stable sort by cost of the previous order |
| CostCaches.DependenciesBefore | equation_solver/tools/structures.py:118-125 | in a cache of true costs sorted by cost, every unknown of a symbol sits at an earlier position |
| Sorting.InsertByCost | equation_solver/tools/structures.py:152 | insertion adds exactly one occurrence of the element |
| Sorting.InsertByCostSorted | equation_solver/tools/structures.py:152 | insertion into a sorted sequence keeps it sorted |
| Sorting.SortByCost | equation_solver/tools/structures.py:152 | the result is a permutation of the input in non-decreasing cost order |
| Sorting.SortByCostStable | equation_solver/tools/structures.py:152 | for every cost, the symbols of that cost keep their relative order |
| SetEquations.ComputeSymbolCost | equation_solver/tools/structures.py:154-176 | a cached symbol returns its stored cost and leaves the cache alone; otherwise the result is the cost by definition and is cached; it fails exactly when the symbol reaches an undeclared symbol, and the error names an undeclared symbol that it reaches; it only appends keys to the cache, each one a symbol it reaches; on success every finished entry still has entries for all its unknowns |
| SetEquations.SumDependencyCosts | equation_solver/tools/structures.py:172-176 | the loop over the unknowns returns the cost by definition and caches it, whatever order it walks them in; a failure names an undeclared symbol that the symbol reaches |
| SetEquations.AddDependencyCost | equation_solver/tools/structures.py:173-175 | one turn of the loop adds the cost of one unknown plus one and writes the running total to the entry of the symbol; a failure names an undeclared symbol that the symbol reaches |
| SetEquations.ComputeAllSymbolsCost | equation_solver/tools/structures.py:141-152 | walks the symbols in the key order of the mapping; passes exactly when the set is closed; the cache then holds the true cost of every declared symbol and nothing else, and its order is the stable sort by cost of the fill order; in the fill order every key the walk wrote is reached from a symbol whose turn came after every key reached from an earlier symbol was written (with `CostCaches.WalkGroupsTurns`: written in the turn of the first symbol that reaches it, turns in walk order); a failure names an undeclared unknown |
| CostCaches.WalkStep | equation_solver/tools/structures.py:148-149 | a turn taken once every earlier symbol holds an entry, starting from a cache in which every entry has entries for its unknowns, and appending only keys its own symbol reaches, keeps the fill order a walk of the symbols in order: everything an earlier symbol reaches is already written |
| CostCaches.ReachedCached | equation_solver/tools/structures.py:165-176 | when every entry has entries for its unknowns, a cached symbol has entries for everything it reaches, so a finished turn leaves nothing it reaches uncached |
| CostCaches.WalkGroupsTurns | equation_solver/tools/structures.py:148-149 | in a walk fill order without repeats, every written key has a first symbol that reaches it, and keys are written in the order of those symbols: the turns of the walk do not interleave |
| SetEquations.SolveEqSet | equation_solver/tools/structures.py:106-128 | succeeds exactly when every unknown is declared; the result is then a solution: its keys are the declared symbols, and each value is the constant plus the values of the unknowns; the cache left behind, whose order the result's keys follow, is the stable sort by cost of the fill order of the walk, each key written in the turn of the first symbol that reaches it; a failure names an undeclared unknown |
| SetEquations.SolveInOrder | equation_solver/tools/structures.py:118-125 | walking the sorted cache yields a solution of the set |
| SetEquations.SolveNext | equation_solver/tools/structures.py:121-125 | the next symbol in the sorted cache is declared, reaches only declared symbols, and is evaluated to its true value from the values found so far |
| SetEquations.SolvedAll | equation_solver/tools/structures.py:118-128 | once every symbol of the cache holds its value, the map solves the set |
| Solutions.ValueFromKnown | equation_solver/tools/structures.py:122-125 | the value of a symbol is its constant plus the known values of its unknowns |
| Solutions.SatisfiesIffValues | equation_solver/tools/structures.py:118-128 | a set has a solution exactly when it is closed, and the solution is unique: it is the value of every symbol |
| Loading.FromText | equation_solver/tools/structures.py:98-103 | the content is split on line feeds; a symbol has an equation exactly when a non-empty line declares it, and every equation sits under its own symbol |
| Loading.FromLines | equation_solver/tools/structures.py:100-103 | every equation is stored under its own symbol |
| Loading.DeclarationOrder | equation_solver/tools/structures.py:99-103 | the key order of the built dict lists exactly its keys, each once; a later declaration of a symbol never moves its key |
| Loading.DeclarationOrderFollowsLines | equation_solver/tools/structures.py:100-103 | of two keys, the one whose first declaring line comes first is listed first |
| Loading.KeysInDeclarationOrder | equation_solver/tools/structures.py:99-103 | over the whole dict built from the lines, every pair of keys is listed in the order of their first declaring lines |
| Loading.DeclaredByALine | equation_solver/tools/structures.py:100-103 | a symbol has an equation exactly when some non-empty line declares it |
| Loading.LastDefinitionWins | equation_solver/tools/structures.py:100-103 | the equation stored for a symbol is the one parsed from the last non-empty line that declares it |
| Loading.FromTextOfLines | equation_solver/tools/structures.py:98-103 | reading the join of lines without line feeds gives the same set as reading the lines one by one |
| Loading.WhitespaceLineDeclaresEmptySymbol | equation_solver/tools/structures.py:101-103 | a line of spaces is not skipped; it declares the empty symbol with no unknowns and constant 0 |
| Examples.ChainCosts | equation_solver/test/test_equation_tools.py:90-116 | for `x = y + 4`, `y = 1`, `z = x + 2`, the costs by definition are `y: 0`, `x: 1`, `z: 2` |
| Examples.ChainCache | equation_solver/test/test_equation_tools.py:90-116 | any cache of true costs for that set is `{x: 1, y: 0, z: 2}`, and sorted by cost it reads `y, x, z` |
| Examples.ChainCostPass | equation_solver/test/test_equation_tools.py:90-116 | the cost pass from an empty cache passes, fills it with `{x: 1, y: 0, z: 2}` and orders it `y, x, z` |
| Examples.ChainSolution | equation_solver/test/test_equation_tools.py:118-151 | the only solution of that set is `{x: 5, y: 1, z: 7}` |
| Examples.ChainSolve | equation_solver/test/test_equation_tools.py:118-151 | solving that set from an empty cache returns `{x: 5, y: 1, z: 7}` |
| Examples.PairSolution | equation_solver/test/test_equation_tools.py:118-151 | the only solution of `x = y + 1`, `y = 1` is `{x: 2, y: 1}` |
| Examples.PairSolve | equation_solver/test/test_equation_tools.py:118-151 | solving `x = y + 1`, `y = 1` from an empty cache returns `{x: 2, y: 1}` |
| Examples.TiesKeepWalkOrder | equation_solver/tools/structures.py:148-152 | two symbols without unknowns, walked as `y`, `x`, both cost 0 and leave the sorted cache as `y`, `x` |
| Examples.TwinsFilled | equation_solver/tools/structures.py:148-149 | a walk of `y`, `x` over two symbols without unknowns can only fill the cache as `y`, `x` |
| Examples.TrioFilled | equation_solver/tools/structures.py:148-149 | for `a = x + 1`, `b = 2`, `x = 3` walked as `a`, `b`, `x`, `b` is written last; the model leaves the order of `a` and `x` open (the program writes `x` first) |
| Examples.TurnsGroupKeys | equation_solver/tools/structures.py:148-152 | the cost pass over that set passes with costs `{a: 1, b: 0, x: 0}` and leaves the sorted cache as `x`, `b`, `a`: `x`, reached first by `a`, sorts ahead of the tie `b` |
| Examples.UndeclaredDependencyFails | equation_solver/tools/structures.py:168 | a set holding only `z = x + y + 2` fails with the missing key `x` or `y` |
| Examples.MissingUnknownRaises | equation_solver/test/test_equation_tools.py:36-40 | `z = 2 + x + y` with only `w` and `x` supplied raises the missing-unknowns error |
| Examples.OneUnknownEvaluates | equation_solver/test/test_equation_tools.py:45 | `x = 7 + y` with `y = 2` evaluates to 9 |
| Examples.LongUnknownEvaluates | equation_solver/test/test_equation_tools.py:47 | `z = 7 + y + offset` with `y = 2`, `offset = 10` evaluates to 19 |
| Examples.TwoUnknownsEvaluate | equation_solver/test/test_equation_tools.py:46 | `x = 2 + y + z` with `y = 2`, `z = 1` evaluates to 5 |

## Left out

- File reading in `from_txt` (structures.py:96-97). This is I/O. `Loading.FromText` starts from the file content.
- `_print_solutions` and the `display_results` flag (structures.py:126-127, 130-139). This is console output only.
- The command-line scripts `equation_solver/scripts/main.py` and `equation_solver/scripts/solver.py`, and `setup.py`. These are argument parsing and packaging, outside the solver.
- SetEquations.ComputeSymbolCost, SetEquations.ComputeAllSymbolsCost, SetEquations.SolveEqSet: these require an acyclic dependency graph, witnessed by the ghost `rank`. On a cycle such as `x = y`, `y = x`, `_compute_symbol_cost` recurses before it writes any entry, so Python raises `RecursionError` at its recursion limit. Depending on the walk order of the unknowns, a cycle can instead be cut by a partial entry written at structures.py:175. For example, with `x = a + y`, `y = x`, `a = 1`, if `a` is walked first, `y` is costed 2 from the partial entry of `x`, and evaluating `y` raises `EquationError`. Neither behaviour is modelled.
- SetEquations.SolveEqSet, SetEquations.ComputeAllSymbolsCost: these require every cache entry on entry to hold a true cost, and every entry to have entries for its unknowns. The empty cache of a fresh object qualifies, and so does the cache a successful call leaves behind. A failed cost pass can leave partial totals in `_symbol_cost` (structures.py:175). Solving the same object again after such a failure is not modelled.
- SetEquations.ComputeAllSymbolsCost: the cache left after a failed pass is not described. Only the error is.
- `symbols` (structures.py:178-185) is the key view of the mapping. The model passes its iteration order as the sequence `symbols`, which must list exactly the keys of `SetEquations.Symbols`, the key set alone, which has no contract of its own.
- SetEquations.ComputeAllSymbolsCost, SetEquations.SolveEqSet, CostCaches.WalkOrder, Examples.TrioFilled: within one turn, the order in which keys are written is not stated. `_compute_symbol_cost` writes a symbol after its first unknown's keys and before the rest (structures.py:173-175), and which unknown comes first is a `set` order the program does not fix. The model states only which turn writes each key and that turns come in walk order.
- SetEquations.SolveEqSet: the solutions are returned as a map, which has no key order. Their Python key order is the order of the sorted cache, which the method returns alongside them.
- Text.IsNumeric, Text.IsAlpha, Text.IsSpace: `str.isnumeric`, `str.isalpha` and `str.isspace` are narrowed to ASCII. Python also accepts other Unicode digits, letters and spaces. For some of those, `int()` would even raise.
- Integers are unbounded, as are Python's, so no width or overflow is modelled.
- No example parses a literal test line such as `"x = 2  + z +  1"` (equation_solver/test/test_equation_tools.py:16-21). Proving such a lemma would mean evaluating the parser on a concrete string, and that is too costly for the verifier. `Equations.TokenInserted`, `Equations.ExtraSpaceIgnored` and `Equations.FormatRoundTrip` state the behaviour those tests check, for every input.
- The examples are stated for any three (or two) distinct symbols rather than the literal names `"x"`, `"y"`, `"z"`. The literal names are one instance.

### Behaviour of the code that is easy to miss

- **Splitting.** The parser splits on a single space (`split(" ")`), not on runs of whitespace. A tab inside a line is therefore part of a token.
- **Undeclared dependency.** A dependency without an equation fails during the cost pass, as the `KeyError` at structures.py:168. It does not fail in `solve_equation`, whose missing-unknowns error never arises inside `solve_eq_set` (`SetEquations.SolveNext`).
- **Whitespace-only lines.** Only the empty string is skipped when reading a text. A line of spaces declares the empty symbol (`Loading.WhitespaceLineDeclaresEmptySymbol`).

=== FILE: cost_cache.dfy ===
/**
 The cost cache `_symbol_cost` of equation_solver/tools/structures.py: a
 dict that remembers the order in which its keys were first written, and
 the invariant the cost pass keeps on it.

 While the cost of a symbol is being summed, its cache entry holds a
 partial total. The symbols in that state at any moment are the ones whose
 pass is still running further up the recursion, the `stack`; every other
 entry holds a true cost.
 */
module CostCaches {
  import opened Sums
  import opened Equations
  import opened Dependencies
  import opened Sorting

  /** `_symbol_cost`: a dict from symbol to cost that remembers the order in
      which its keys were first written. */
  datatype CostCache = CostCache(order: seq<string>, cost: map<string, nat>)

  /** Each key appears once in `order`, and `order` lists exactly the keys. */
  ghost predicate WellFormed(c: CostCache) {
    && (forall k :: multiset(c.order)[k] <= 1)
    && (forall k :: k in c.cost <==> k in c.order)
  }

  /** `cache[k] = v`: an existing key keeps its position, a new key goes last. */
  function Store(c: CostCache, k: string, v: nat): (r: CostCache)
    requires WellFormed(c)
    ensures WellFormed(r)
    ensures r.cost == c.cost[k := v]
    ensures c.order <= r.order
  {
    if k in c.cost then CostCache(c.order, c.cost[k := v])
    else CostCache(c.order + [k], c.cost[k := v])
  }

  /** `after` extends `before`, and every key appended is one that `s`
      reaches. */
  ghost predicate AppendsReached(equations: map<string, Equation>, rank: map<string, nat>, s: string,
                                 before: seq<string>, after: seq<string>)
    requires Ranked(equations, rank) && s in rank
  {
    before <= after && forall n :: |before| <= n < |after| ==> Reaches(equations, rank, s, after[n])
  }

  /** Two appends from `s` in a row are one append from `s`. */
  lemma AppendsChain(equations: map<string, Equation>, rank: map<string, nat>, s: string,
                     first: seq<string>, middle: seq<string>, last: seq<string>)
    requires Ranked(equations, rank) && s in rank
    requires AppendsReached(equations, rank, s, first, middle)
    requires AppendsReached(equations, rank, s, middle, last)
    ensures AppendsReached(equations, rank, s, first, last)
  {
    forall n | |first| <= n < |last|
      ensures Reaches(equations, rank, s, last[n])
    {
      if n < |middle| {
        assert last[n] == middle[n];
      }
    }
  }

  /** Storing the entry of `s` appends at most `s` itself. */
  lemma StoreAppends(equations: map<string, Equation>, rank: map<string, nat>, c: CostCache, s: string, v: nat)
    requires Ranked(equations, rank) && s in rank && WellFormed(c)
    ensures AppendsReached(equations, rank, s, c.order, Store(c, s, v).order)
  {
  }

  /** Keys appended while costing an unknown of `s` are reached from `s`. */
  lemma AppendsThrough(equations: map<string, Equation>, rank: map<string, nat>, s: string, d: string,
                       before: seq<string>, after: seq<string>)
    requires Ranked(equations, rank) && s in equations && d in equations[s].unknowns
    requires AppendsReached(equations, rank, d, before, after)
    ensures AppendsReached(equations, rank, s, before, after)
  {
    forall n | |before| <= n < |after|
      ensures Reaches(equations, rank, s, after[n])
    {
      ReachesThrough(equations, rank, s, d, after[n]);
    }
  }

  /** A cache whose order only grew keeps every key. */
  lemma KeysKept(before: CostCache, after: CostCache)
    requires WellFormed(before) && WellFormed(after) && before.order <= after.order
    ensures before.cost.Keys <= after.cost.Keys
  {
    forall k | k in before.cost
      ensures k in after.cost
    {
      var i :| 0 <= i < |before.order| && before.order[i] == k;
      assert after.order[i] == k;
    }
  }

  /** Every cached entry belongs to a declared symbol, and each one outside
      `stack` holds that symbol's true cost. */
  ghost predicate TrueExcept(equations: map<string, Equation>, rank: map<string, nat>, c: CostCache, stack: set<string>)
    requires Ranked(equations, rank)
  {
    && WellFormed(c)
    && forall k {:trigger c.cost[k]} :: k in c.cost ==>
         k in equations && (k !in stack ==> ClosedFrom(equations, rank, k) && c.cost[k] == Cost(equations, rank, k))
  }

  /** Every cached entry outside `stack` belongs to a declared symbol whose
      unknowns all hold entries too: a finished pass leaves behind the
      entries of everything it needed. */
  ghost predicate DependenciesCached(equations: map<string, Equation>, c: CostCache, stack: set<string>) {
    forall k {:trigger c.cost[k]} :: k in c.cost && k !in stack ==> k in equations && equations[k].unknowns <= c.cost.Keys
  }

  /** In a cache whose finished entries have their unknowns cached, a cached
      symbol has everything it reaches cached. */
  lemma {:induction false} ReachedCached(equations: map<string, Equation>, rank: map<string, nat>, c: CostCache,
                                         s: string, k: string)
    requires Ranked(equations, rank) && DependenciesCached(equations, c, {})
    requires s in c.cost && s in rank && Reaches(equations, rank, s, k)
    ensures k in c.cost
    decreases rank[s]
  {
    if s != k {
      assert c.cost[s] >= 0;
      var d :| d in equations[s].unknowns && Reaches(equations, rank, d, k);
      ReachedCached(equations, rank, c, d, k);
    }
  }

  /** Every cached entry holds the true cost of a declared symbol. */
  ghost predicate CacheTrue(equations: map<string, Equation>, rank: map<string, nat>, c: CostCache)
    requires Ranked(equations, rank)
  {
    TrueExcept(equations, rank, c, {})
  }

  /** Every symbol on the stack ranks above `s`: `s` is not on it, and
      nothing `s` depends on is. */
  ghost predicate Above(rank: map<string, nat>, stack: set<string>, s: string)
    requires s in rank
  {
    forall a :: a in stack ==> a in rank && rank[s] < rank[a]
  }

  /** A dependency `d` of `s` sees the stack grown by `s` above it. */
  lemma AboveDependency(equations: map<string, Equation>, rank: map<string, nat>, stack: set<string>, s: string, d: string)
    requires Ranked(equations, rank) && s in equations && d in equations[s].unknowns
    requires Above(rank, stack, s)
    ensures d in rank && rank[d] < rank[s] && Above(rank, stack + {s}, d)
  {
  }

  /** A symbol without an entry can go on the stack. */
  lemma PushUncached(equations: map<string, Equation>, rank: map<string, nat>, c: CostCache, stack: set<string>, s: string)
    requires Ranked(equations, rank) && s !in c.cost
    requires TrueExcept(equations, rank, c, stack) && DependenciesCached(equations, c, stack)
    ensures TrueExcept(equations, rank, c, stack + {s}) && DependenciesCached(equations, c, stack + {s})
  {
  }

  /** Writing a partial total for `s` while `s` is on the stack keeps every
      other entry as it was. */
  lemma StorePartial(equations: map<string, Equation>, rank: map<string, nat>, c: CostCache, stack: set<string>, s: string, v: nat)
    requires Ranked(equations, rank) && s in equations && s in stack
    requires TrueExcept(equations, rank, c, stack) && DependenciesCached(equations, c, stack)
    ensures TrueExcept(equations, rank, Store(c, s, v), stack) && DependenciesCached(equations, Store(c, s, v), stack)
  {
  }

  /** Once the entry of `s` holds its true cost, `s` leaves the stack. */
  lemma PopFinished(equations: map<string, Equation>, rank: map<string, nat>, c: CostCache, stack: set<string>, s: string)
    requires Ranked(equations, rank) && s in rank && ClosedFrom(equations, rank, s)
    requires TrueExcept(equations, rank, c, stack + {s})
    requires s in c.cost && c.cost[s] == Cost(equations, rank, s)
    requires DependenciesCached(equations, c, stack + {s}) && s in equations && equations[s].unknowns <= c.cost.Keys
    ensures TrueExcept(equations, rank, c, stack) && DependenciesCached(equations, c, stack)
  {
  }

  /** The state of the loop of `_compute_symbol_cost` once the unknowns
      `done` of `s` are summed: each reaches only declared symbols, and
      `total` is the sum of their costs plus one. */
  ghost predicate Summed(equations: map<string, Equation>, rank: map<string, nat>, s: string, done: set<string>, total: nat)
    requires Ranked(equations, rank) && s in equations
  {
    && done <= equations[s].unknowns
    && (forall d :: d in done ==> ClosedFrom(equations, rank, d))
    && total == SumOf(done, CostTerms(equations, rank, done))
  }

  lemma SummedNothing(equations: map<string, Equation>, rank: map<string, nat>, s: string)
    requires Ranked(equations, rank) && s in equations
    ensures Summed(equations, rank, s, {}, 0)
  {
  }

  /** Summing one more unknown `d` adds its cost plus one. */
  lemma SummedStep(equations: map<string, Equation>, rank: map<string, nat>, s: string, done: set<string>, total: nat, d: string, v: nat)
    requires Ranked(equations, rank) && s in equations && d in equations[s].unknowns && d !in done
    requires Summed(equations, rank, s, done, total)
    requires ClosedFrom(equations, rank, d) && v == Cost(equations, rank, d)
    ensures Summed(equations, rank, s, done + {d}, total + v + 1)
  {
    CostTermsInsert(equations, rank, done, d);
  }

  /** After the unknown `d` of `s` is costed at `v` and the new running
      total is written to the entry of `s`, the sum covers `d` too, `s`
      and the summed unknowns hold entries, the cache stays true outside the stack, and every key
      appended since `start` is still reached from `s`. */
  lemma StepStored(equations: map<string, Equation>, rank: map<string, nat>, stack: set<string>, s: string,
                   done: set<string>, total: nat, d: string, v: nat, start: seq<string>, c: CostCache)
    requires Ranked(equations, rank) && s in equations && d in equations[s].unknowns && d !in done
    requires Summed(equations, rank, s, done, total)
    requires ClosedFrom(equations, rank, d) && v == Cost(equations, rank, d)
    requires TrueExcept(equations, rank, c, stack + {s}) && DependenciesCached(equations, c, stack + {s})
    requires AppendsReached(equations, rank, s, start, c.order) && done + {d} <= c.cost.Keys
    ensures Summed(equations, rank, s, done + {d}, total + v + 1)
    ensures s in Store(c, s, total + v + 1).cost && done + {d} <= Store(c, s, total + v + 1).cost.Keys
    ensures TrueExcept(equations, rank, Store(c, s, total + v + 1), stack + {s})
    ensures DependenciesCached(equations, Store(c, s, total + v + 1), stack + {s})
    ensures AppendsReached(equations, rank, s, start, Store(c, s, total + v + 1).order)
  {
    SummedStep(equations, rank, s, done, total, d, v);
    StorePartial(equations, rank, c, stack + {s}, s, total + v + 1);
    StoreAppends(equations, rank, c, s, total + v + 1);
    AppendsChain(equations, rank, s, start, c.order, Store(c, s, total + v + 1).order);
  }

  /** Once every unknown is summed, the total is the cost of `s`. */
  lemma SummedAll(equations: map<string, Equation>, rank: map<string, nat>, s: string, total: nat)
    requires Ranked(equations, rank) && s in equations
    requires Summed(equations, rank, s, equations[s].unknowns, total)
    ensures ClosedFrom(equations, rank, s) && total == Cost(equations, rank, s)
  {
    CostIsSumOfTerms(equations, rank, s);
  }

  /** The state of the loop of `_compute_symbol_cost` over the cache: the
      unknowns `done` of `s` are summed into `total`, which the entry of
      `s` holds once one of them is; each summed unknown holds an entry;
      the cache is true outside the stack and `s`; and every key appended
      since `origin` is reached from `s`. */
  ghost predicate SumLoop(equations: map<string, Equation>, rank: map<string, nat>, stack: set<string>, s: string,
                          origin: seq<string>, done: set<string>, total: nat, c: CostCache)
    requires Ranked(equations, rank) && s in equations
  {
    && Summed(equations, rank, s, done, total)
    && (done != {} ==> s in c.cost && c.cost[s] == total)
    && done <= c.cost.Keys
    && TrueExcept(equations, rank, c, stack + {s}) && DependenciesCached(equations, c, stack + {s})
    && AppendsReached(equations, rank, s, origin, c.order)
  }

  /** Summing one more unknown `d` advances the loop state. */
  lemma SumAdvances(equations: map<string, Equation>, rank: map<string, nat>, stack: set<string>, s: string,
                    origin: seq<string>, done: set<string>, total: nat, c: CostCache, d: string, v: nat, next: CostCache)
    requires Ranked(equations, rank) && s in equations && d in equations[s].unknowns
    requires SumLoop(equations, rank, stack, s, origin, done, total, c)
    requires Summed(equations, rank, s, done + {d}, v)
    requires s in next.cost && next.cost[s] == v && done + {d} <= next.cost.Keys
    requires TrueExcept(equations, rank, next, stack + {s}) && DependenciesCached(equations, next, stack + {s})
    requires AppendsReached(equations, rank, s, c.order, next.order)
    ensures SumLoop(equations, rank, stack, s, origin, done + {d}, v, next)
  {
    AppendsChain(equations, rank, s, origin, c.order, next.order);
  }

  /** Once every unknown of `s` is summed and the total written to its
      entry, that entry is the true cost and `s` leaves the stack. */
  lemma SumFinished(equations: map<string, Equation>, rank: map<string, nat>, c: CostCache, stack: set<string>,
                    s: string, total: nat)
    requires Ranked(equations, rank) && s in equations
    requires Summed(equations, rank, s, equations[s].unknowns, total)
    requires TrueExcept(equations, rank, c, stack + {s}) && DependenciesCached(equations, c, stack + {s})
    requires s in c.cost && c.cost[s] == total && equations[s].unknowns <= c.cost.Keys
    ensures ClosedFrom(equations, rank, s) && total == Cost(equations, rank, s)
    ensures TrueExcept(equations, rank, c, stack) && DependenciesCached(equations, c, stack)
  {
    SummedAll(equations, rank, s, total);
    PopFinished(equations, rank, c, stack, s);
  }

  /** A cache holding the true cost of every declared symbol shows that the
      set is closed, and holds nothing else. */
  lemma CacheCoversAll(equations: map<string, Equation>, rank: map<string, nat>, c: CostCache)
    requires Ranked(equations, rank) && CacheTrue(equations, rank, c)
    requires forall x :: x in equations ==> x in c.cost
    ensures c.cost.Keys == equations.Keys
    ensures Closed(equations)
  {
    ClosedIffClosedFromAll(equations, rank);
  }

  /** Everything reached from a symbol walked before `symbols[m]` is among
      `written`. */
  ghost predicate ReachedBefore(equations: map<string, Equation>, rank: map<string, nat>, symbols: seq<string>,
                                m: int, written: seq<string>)
    requires Ranked(equations, rank) && forall m :: 0 <= m < |symbols| ==> symbols[m] in equations
  {
    forall p, k :: 0 <= p < m && p < |symbols| && Reaches(equations, rank, symbols[p], k) ==> k in written
  }

  /** The keys of `filled` from position `start` on were written by a walk
      of `symbols` in order: each one is reached from some `symbols[m]`
      whose turn came once everything reached from the symbols before it
      held an entry. */
  ghost predicate WalkOrder(equations: map<string, Equation>, rank: map<string, nat>, symbols: seq<string>,
                            start: nat, filled: seq<string>)
    requires Ranked(equations, rank) && forall m :: 0 <= m < |symbols| ==> symbols[m] in equations
  {
    forall n :: start <= n < |filled| ==> WrittenInTurn(equations, rank, symbols, filled, n)
  }

  /** The key at position `n` of `filled` is reached from a symbol whose
      turn came once everything reached from the symbols before it held an
      entry. */
  ghost predicate WrittenInTurn(equations: map<string, Equation>, rank: map<string, nat>, symbols: seq<string>,
                                filled: seq<string>, n: int)
    requires Ranked(equations, rank) && forall m :: 0 <= m < |symbols| ==> symbols[m] in equations
    requires 0 <= n < |filled|
  {
    exists m :: 0 <= m < |symbols| && Reaches(equations, rank, symbols[m], filled[n])
                && ReachedBefore(equations, rank, symbols, m, filled[..n])
  }

  /** The turn of `symbols[i]`, taken once every earlier symbol holds an
      entry in a cache that keeps the entries of their unknowns, appends
      only keys that `symbols[i]` reaches, and so keeps the walk order. */
  lemma WalkStep(equations: map<string, Equation>, rank: map<string, nat>, symbols: seq<string>, i: int,
                 start: nat, before: CostCache, after: CostCache)
    requires Ranked(equations, rank) && forall m :: 0 <= m < |symbols| ==> symbols[m] in equations
    requires 0 <= i < |symbols| && start <= |before.order|
    requires WellFormed(before) && DependenciesCached(equations, before, {})
    requires WalkOrder(equations, rank, symbols, start, before.order)
    requires forall p :: 0 <= p < i ==> symbols[p] in before.cost
    requires AppendsReached(equations, rank, symbols[i], before.order, after.order)
    ensures WalkOrder(equations, rank, symbols, start, after.order)
  {
    forall n | start <= n < |after.order|
      ensures WrittenInTurn(equations, rank, symbols, after.order, n)
    {
      if n < |before.order| {
        assert after.order[..n] == before.order[..n];
        assert after.order[n] == before.order[n];
        assert WrittenInTurn(equations, rank, symbols, before.order, n);
      } else {
        forall p, k | 0 <= p < i && p < |symbols| && Reaches(equations, rank, symbols[p], k)
          ensures k in after.order[..n]
        {
          ReachedCached(equations, rank, before, symbols[p], k);
          var q :| 0 <= q < |before.order| && before.order[q] == k;
          assert after.order[..n][q] == k;
        }
        assert Reaches(equations, rank, symbols[i], after.order[n]) && ReachedBefore(equations, rank, symbols, i, after.order[..n]);
      }
    }
  }

  /** `symbols[m]` is the first symbol of the walk that reaches `k`: the
      turn in which `k` is written. */
  ghost predicate TurnOf(equations: map<string, Equation>, rank: map<string, nat>, symbols: seq<string>, m: int, k: string)
    requires Ranked(equations, rank) && forall m :: 0 <= m < |symbols| ==> symbols[m] in equations
  {
    0 <= m < |symbols| && Reaches(equations, rank, symbols[m], k)
    && forall p :: 0 <= p < m ==> !Reaches(equations, rank, symbols[p], k)
  }

  /** Some symbol of the walk reaches `k`. */
  ghost predicate HasTurn(equations: map<string, Equation>, rank: map<string, nat>, symbols: seq<string>, k: string)
    requires Ranked(equations, rank) && forall m :: 0 <= m < |symbols| ==> symbols[m] in equations
  {
    exists m :: TurnOf(equations, rank, symbols, m, k)
  }

  /** A walk order without repeated keys groups the keys by turn: each key
      from `start` on is written in the turn of the first symbol that
      reaches it, and the turns never go back. */
  lemma {:induction false} WalkGroupsTurns(equations: map<string, Equation>, rank: map<string, nat>, symbols: seq<string>,
                                           start: nat, filled: seq<string>)
    requires Ranked(equations, rank) && forall m :: 0 <= m < |symbols| ==> symbols[m] in equations
    requires forall k :: multiset(filled)[k] <= 1
    requires WalkOrder(equations, rank, symbols, start, filled)
    ensures forall n :: start <= n < |filled| ==> HasTurn(equations, rank, symbols, filled[n])
    ensures forall n1, n2, m1, m2 ::
              start <= n1 < n2 < |filled| && TurnOf(equations, rank, symbols, m1, filled[n1])
              && TurnOf(equations, rank, symbols, m2, filled[n2])
              ==> m1 <= m2
  {
    DistinctIndices(filled);
    forall n | start <= n < |filled|
      ensures HasTurn(equations, rank, symbols, filled[n])
    {
      var m := TurnWitness(equations, rank, symbols, start, filled, n);
    }
    forall n1, n2, m1, m2 | start <= n1 < n2 < |filled| && TurnOf(equations, rank, symbols, m1, filled[n1])
                            && TurnOf(equations, rank, symbols, m2, filled[n2])
      ensures m1 <= m2
    {
      var w1 := TurnWitness(equations, rank, symbols, start, filled, n1);
      assert w1 == m1 by {
        assert !(w1 < m1) && !(m1 < w1);
      }
      NotBefore(filled, n2, n1);
      assert Reaches(equations, rank, symbols[m2], filled[n2]);
    }
  }

  /** The turn that wrote the key at position `n` is the first symbol that
      reaches it: an earlier one would have had it written before. */
  lemma TurnWitness(equations: map<string, Equation>, rank: map<string, nat>, symbols: seq<string>,
                    start: nat, filled: seq<string>, n: int) returns (m: int)
    requires Ranked(equations, rank) && forall m :: 0 <= m < |symbols| ==> symbols[m] in equations
    requires forall i, j :: 0 <= i < j < |filled| ==> filled[i] != filled[j]
    requires WalkOrder(equations, rank, symbols, start, filled) && start <= n < |filled|
    ensures TurnOf(equations, rank, symbols, m, filled[n])
    ensures ReachedBefore(equations, rank, symbols, m, filled[..n])
  {
    assert WrittenInTurn(equations, rank, symbols, filled, n);
    m :| 0 <= m < |symbols| && Reaches(equations, rank, symbols[m], filled[n])
         && ReachedBefore(equations, rank, symbols, m, filled[..n]);
    NotBefore(filled, n, n);
    forall p | 0 <= p < m
      ensures !Reaches(equations, rank, symbols[p], filled[n])
    {
      assert filled[n] !in filled[..n];
    }
  }

  /** In a sequence without repeats, the key at position `n` is not among
      the first `bound <= n` keys. */
  lemma NotBefore(s: seq<string>, n: int, bound: int)
    requires forall i, j :: 0 <= i < j < |s| ==> s[i] != s[j]
    requires 0 <= bound <= n < |s|
    ensures s[n] !in s[..bound]
  {
    forall q | 0 <= q < bound
      ensures s[..bound][q] != s[n]
    {
      assert s[..bound][q] == s[q];
    }
  }

  /** A sequence in which every key occurs at most once has no key at two
      positions. */
  lemma DistinctIndices(s: seq<string>)
    requires forall k :: multiset(s)[k] <= 1
    ensures forall i, j :: 0 <= i < j < |s| ==> s[i] != s[j]
  {
    forall i, j | 0 <= i < j < |s|
      ensures s[i] != s[j]
    {
      assert s == s[..j] + s[j..];
      assert s[i] == s[..j][i] && s[j] == s[j..][0];
      assert multiset(s) == multiset(s[..j]) + multiset(s[j..]);
      assert multiset(s[..j])[s[i]] >= 1 && multiset(s[j..])[s[j]] >= 1;
      assert multiset(s)[s[i]] <= 1;
    }
  }

  /** The cache rebuilt from its entries in stable ascending order of cost
      (`dict(sorted(cache.items(), key=...))`). */
  function SortCache(c: CostCache): (r: CostCache)
    requires WellFormed(c)
    ensures WellFormed(r) && r.cost == c.cost
    ensures Costed(c.order, c.cost) && r.order == SortByCost(c.order, c.cost)
  {
    assert Costed(c.order, c.cost);
    var sorted := SortByCost(c.order, c.cost);
    assert forall k :: k in sorted <==> k in multiset(sorted);
    assert forall k :: k in c.order <==> k in multiset(c.order);
    CostCache(sorted, c.cost)
  }

  /** In a cache that holds the true cost of every declared symbol, sorted
      by cost, every unknown of the symbol at position `i` sits at an
      earlier position: walking the cache in order reaches each dependency
      before the symbols that use it. */
  lemma DependenciesBefore(equations: map<string, Equation>, rank: map<string, nat>, c: CostCache, i: int, solved: set<string>)
    requires Ranked(equations, rank) && CacheTrue(equations, rank, c) && c.cost.Keys == equations.Keys
    requires Costed(c.order, c.cost) && SortedByCost(c.order, c.cost)
    requires 0 <= i < |c.order|
    requires forall j :: 0 <= j < i ==> c.order[j] in solved
    ensures c.order[i] in equations && ClosedFrom(equations, rank, c.order[i])
    ensures equations[c.order[i]].unknowns <= solved
  {
    var s := c.order[i];
    assert c.cost[s] == Cost(equations, rank, s);
    CostOrdersDependencies(equations, rank, s);
    forall d | d in equations[s].unknowns
      ensures d in solved
    {
      assert ClosedFrom(equations, rank, d);
      var j :| 0 <= j < |c.order| && c.order[j] == d;
      assert c.cost[d] == Cost(equations, rank, d);
    }
  }
}

=== FILE: dependencies.dfy ===
/**
 The dependency graph of a set of equations and the cost it induces
 (`_compute_symbol_cost` in equation_solver/tools/structures.py, read as a
 definition): a symbol without unknowns costs 0, and otherwise the sum over
 its unknowns of their cost plus one.

 The recursion terminates only on acyclic sets. Acyclicity is a
 precondition: a `rank` map, used only in proofs, that strictly decreases
 along every dependency edge.
 */
module Dependencies {
  import opened Sums
  import opened Equations

  /** `rank` witnesses that the dependency graph has no cycle: every symbol
      with an equation, and every unknown it uses, has a rank, and each
      unknown ranks strictly below the symbol that uses it. */
  ghost predicate Ranked(equations: map<string, Equation>, rank: map<string, nat>) {
    forall s :: s in equations ==>
      s in rank && forall d {:trigger d in equations[s].unknowns} :: d in equations[s].unknowns ==> d in rank && rank[d] < rank[s]
  }

  /** Every unknown of every equation has an equation of its own. */
  ghost predicate Closed(equations: map<string, Equation>) {
    forall s, d :: s in equations && d in equations[s].unknowns ==> d in equations
  }

  /** `k` is an unknown of some equation of the set but has no equation of
      its own. */
  ghost predicate Undeclared(equations: map<string, Equation>, k: string) {
    k !in equations && exists t :: t in equations && k in equations[t].unknowns
  }

  /** Every symbol reachable from `s`, `s` included, has an equation. */
  ghost predicate ClosedFrom(equations: map<string, Equation>, rank: map<string, nat>, s: string)
    requires Ranked(equations, rank) && s in rank
    decreases rank[s]
  {
    s in equations && forall d :: d in equations[s].unknowns ==> ClosedFrom(equations, rank, d)
  }

  /** `k` is `s` itself or is reached from `s` along the unknowns of
      declared symbols. */
  ghost predicate Reaches(equations: map<string, Equation>, rank: map<string, nat>, s: string, k: string)
    requires Ranked(equations, rank) && s in rank
    decreases rank[s]
  {
    s == k || (s in equations && exists d :: d in equations[s].unknowns && Reaches(equations, rank, d, k))
  }

  /** What an unknown of `s` reaches, `s` reaches too. */
  lemma ReachesThrough(equations: map<string, Equation>, rank: map<string, nat>, s: string, d: string, k: string)
    requires Ranked(equations, rank) && s in equations && d in equations[s].unknowns
    requires Reaches(equations, rank, d, k)
    ensures Reaches(equations, rank, s, k)
  {
  }

  /** A failure reported for an unknown `d` of `s` is a failure of `s`:
      the missing symbol `k` is reached from `s` and is used by some
      equation. */
  lemma FailsThrough(equations: map<string, Equation>, rank: map<string, nat>, s: string, d: string, k: string)
    requires Ranked(equations, rank) && s in equations && d in equations[s].unknowns
    requires Reaches(equations, rank, d, k) && !ClosedFrom(equations, rank, d)
    requires k !in equations && (k == d || Undeclared(equations, k))
    ensures Reaches(equations, rank, s, k) && Undeclared(equations, k) && !ClosedFrom(equations, rank, s)
  {
    ReachesThrough(equations, rank, s, d, k);
  }

  /** A set is closed exactly when every symbol in it reaches only declared
      symbols. */
  lemma ClosedIffClosedFromAll(equations: map<string, Equation>, rank: map<string, nat>)
    requires Ranked(equations, rank)
    ensures Closed(equations) <==> forall s :: s in equations ==> ClosedFrom(equations, rank, s)
  {
    if Closed(equations) {
      forall s | s in equations
        ensures ClosedFrom(equations, rank, s)
      {
        ClosedReachesOnlyDeclared(equations, rank, s);
      }
    }
  }

  lemma {:induction false} ClosedReachesOnlyDeclared(equations: map<string, Equation>, rank: map<string, nat>, s: string)
    requires Ranked(equations, rank) && Closed(equations) && s in equations
    ensures ClosedFrom(equations, rank, s)
    decreases rank[s]
  {
    forall d | d in equations[s].unknowns
      ensures ClosedFrom(equations, rank, d)
    {
      ClosedReachesOnlyDeclared(equations, rank, d);
    }
  }

  // ---------------------------------------------------------------------
  // Cost
  // ---------------------------------------------------------------------

  /** The cost of `s`: the sum, over each unknown `d` of its equation, of
      `Cost(d) + 1` (zero when there is no unknown). */
  ghost function Cost(equations: map<string, Equation>, rank: map<string, nat>, s: string): (r: int)
    requires Ranked(equations, rank) && s in rank && ClosedFrom(equations, rank, s)
    decreases rank[s]
  {
    var deps := equations[s].unknowns;
    SumOf(deps, map d | d in deps :: Cost(equations, rank, d) + 1)
  }

  /** Costs are non-negative, zero exactly for equations without unknowns,
      and every unknown costs strictly less than the symbol that uses it:
      ascending cost order puts each dependency before its dependents. */
  lemma {:induction false} CostOrdersDependencies(equations: map<string, Equation>, rank: map<string, nat>, s: string)
    requires Ranked(equations, rank) && s in rank && ClosedFrom(equations, rank, s)
    ensures Cost(equations, rank, s) >= 0
    ensures Cost(equations, rank, s) == 0 <==> equations[s].unknowns == {}
    ensures forall d :: d in equations[s].unknowns ==> Cost(equations, rank, d) < Cost(equations, rank, s)
    decreases rank[s]
  {
    var deps := equations[s].unknowns;
    var m := map d | d in deps :: Cost(equations, rank, d) + 1;
    forall d | d in deps
      ensures m[d] >= 1
    {
      CostOrdersDependencies(equations, rank, d);
    }
    SumOfNonNegative(deps, m);
    forall d | d in deps
      ensures Cost(equations, rank, d) < Cost(equations, rank, s)
    {
      SumOfAtLeastTerm(deps, m, d);
    }
    if deps != {} {
      var d :| d in deps;
      SumOfAtLeastTerm(deps, m, d);
    }
  }

  /** The terms `Cost(d) + 1` that the cost of a symbol sums, for the
      unknowns `keys` summed so far. */
  ghost function CostTerms(equations: map<string, Equation>, rank: map<string, nat>, keys: set<string>): (m: map<string, int>)
    requires Ranked(equations, rank)
    requires forall d :: d in keys ==> d in rank && ClosedFrom(equations, rank, d)
    ensures m.Keys == keys
  {
    map d | d in keys :: Cost(equations, rank, d) + 1
  }

  lemma CostIsSumOfTerms(equations: map<string, Equation>, rank: map<string, nat>, s: string)
    requires Ranked(equations, rank) && s in rank && ClosedFrom(equations, rank, s)
    ensures forall d :: d in equations[s].unknowns ==> d in rank && ClosedFrom(equations, rank, d)
    ensures Cost(equations, rank, s) == SumOf(equations[s].unknowns, CostTerms(equations, rank, equations[s].unknowns))
  {
  }

  /** Summing one more unknown adds its cost plus one. */
  lemma CostTermsInsert(equations: map<string, Equation>, rank: map<string, nat>, done: set<string>, d: string)
    requires Ranked(equations, rank)
    requires forall k :: k in done ==> k in rank && ClosedFrom(equations, rank, k)
    requires d in rank && ClosedFrom(equations, rank, d) && d !in done
    ensures SumOf(done + {d}, CostTerms(equations, rank, done + {d}))
         == SumOf(done, CostTerms(equations, rank, done)) + Cost(equations, rank, d) + 1
  {
    var before, after := CostTerms(equations, rank, done), CostTerms(equations, rank, done + {d});
    SumOfAgree(done, before, after);
    SumOfInsert(done, after, d);
  }
}

=== FILE: equations.dfy ===
/**
 A single equation `symbol = c1 + c2 + ... + u1 + u2 + ...`: its record,
 its parser from one line of text, and its evaluation against a map of
 known values (the `Equation` class of equation_solver/tools/structures.py).
 */
module Equations {
  import opened Text
  import opened Sums

  /** `symbol = sumConstants + sum(unknowns)`. */
  datatype Equation = Equation(symbol: string, unknowns: set<string>, sumConstants: int)

  datatype Error =
    /** `EquationError`: an equation was evaluated before all of its unknowns
        had values; carries the equation and the keys that were supplied. */
    | MissingUnknowns(equation: Equation, provided: set<string>)
    /** `KeyError` from looking up a symbol that has no equation of its own. */
    | UndeclaredSymbol(symbol: string)

  datatype Result<T> = Success(value: T) | Failure(error: Error)

  /** The result of a step that returns nothing but may raise. */
  datatype Outcome = Pass | Fail(error: Error)

  // ---------------------------------------------------------------------
  // Parsing
  // ---------------------------------------------------------------------

  /** A right-hand-side token that the parser skips: the empty strings that
      repeated spaces produce, `=`, `+` and anything neither numeric nor
      alphabetic. */
  predicate Ignored(t: string) {
    !IsNumeric(t) && !IsAlpha(t)
  }

  /** What one right-hand-side token contributes: a numeric token its value,
      an alphabetic token itself as an unknown, any other token nothing. */
  function TokenTerms(t: string): (r: (set<string>, nat))
  {
    if t == "" then ({}, 0)
    else if IsNumeric(t) then ({}, DecimalValue(t))
    else if IsAlpha(t) then ({t}, 0)
    else ({}, 0)
  }

  function Combine(x: (set<string>, nat), y: (set<string>, nat)): (r: (set<string>, nat))
  {
    (x.0 + y.0, x.1 + y.1)
  }

  /** Folds right-hand-side tokens into the unknown set and the constant sum. */
  function ClassifyTerms(tokens: seq<string>): (r: (set<string>, nat))
    decreases |tokens|
  {
    if |tokens| == 0 then ({}, 0)
    else Combine(TokenTerms(tokens[0]), ClassifyTerms(tokens[1..]))
  }

  /** The unknowns are exactly the alphabetic tokens. */
  lemma {:induction false} ClassifiedUnknowns(tokens: seq<string>)
    ensures forall x :: x in ClassifyTerms(tokens).0 <==> x in tokens && IsAlpha(x)
    decreases |tokens|
  {
    if |tokens| > 0 {
      ClassifiedUnknowns(tokens[1..]);
      NumericNotAlpha(tokens[0]);
      assert forall x :: x in tokens <==> x == tokens[0] || x in tokens[1..];
    }
  }

  /** Classification is a homomorphism from concatenation to (union, +):
      where a token stands in the line does not matter. */
  lemma {:induction false} ClassifyConcat(a: seq<string>, b: seq<string>)
    ensures ClassifyTerms(a + b) == Combine(ClassifyTerms(a), ClassifyTerms(b))
    decreases |a|
  {
    if |a| == 0 {
      assert a + b == b;
      assert {} + ClassifyTerms(b).0 == ClassifyTerms(b).0;
    } else {
      assert (a + b)[0] == a[0];
      assert (a + b)[1..] == a[1..] + b;
      ClassifyConcat(a[1..], b);
      var x, y, z := TokenTerms(a[0]), ClassifyTerms(a[1..]), ClassifyTerms(b);
      assert x.0 + (y.0 + z.0) == (x.0 + y.0) + z.0;
    }
  }

  /** A one-token sequence contributes exactly that token's terms. */
  lemma ClassifySingle(t: string)
    ensures ClassifyTerms([t]) == TokenTerms(t)
  {
    assert [t][1..] == [];
    assert TokenTerms(t).0 + {} == TokenTerms(t).0;
  }

  /** `Equation.from_string`: strip the line, split it on single spaces, take
      the first piece as the symbol and classify the rest. */
  function FromString(line: string): (eq: Equation)
    ensures ' ' !in eq.symbol
    ensures eq.sumConstants >= 0
    ensures forall u :: u in eq.unknowns ==> IsAlpha(u)
  {
    FromTokens(Split(Strip(line), ' '))
  }

  function FromTokens(tokens: seq<string>): (eq: Equation)
    requires |tokens| >= 1
    ensures forall u :: u in eq.unknowns ==> IsAlpha(u)
  {
    var terms := ClassifyTerms(tokens[1..]);
    ClassifiedUnknowns(tokens[1..]);
    Equation(tokens[0], terms.0, terms.1)
  }

  /** What one more right-hand-side token does to the parsed equation,
      wherever it stands after the symbol: the symbol stays the first
      piece, a numeric token adds its value to the constant, an alphabetic
      token joins the unknowns, and any other token changes nothing. */
  lemma TokenInserted(pa: seq<string>, t: string, pb: seq<string>)
    requires |pa| >= 1
    ensures FromTokens(pa + [t] + pb).symbol == FromTokens(pa + pb).symbol == pa[0]
    ensures IsNumeric(t) ==> FromTokens(pa + [t] + pb).unknowns == FromTokens(pa + pb).unknowns
    ensures IsNumeric(t) ==>
      FromTokens(pa + [t] + pb).sumConstants == FromTokens(pa + pb).sumConstants + DecimalValue(t)
    ensures IsAlpha(t) ==> FromTokens(pa + [t] + pb).unknowns == FromTokens(pa + pb).unknowns + {t}
    ensures IsAlpha(t) ==> FromTokens(pa + [t] + pb).sumConstants == FromTokens(pa + pb).sumConstants
    ensures Ignored(t) ==> FromTokens(pa + [t] + pb) == FromTokens(pa + pb)
  {
    var rest := pa[1..];
    assert (pa + [t] + pb)[1..] == rest + ([t] + pb);
    assert (pa + pb)[1..] == rest + pb;
    ClassifyConcat(rest, [t] + pb);
    ClassifyConcat([t], pb);
    ClassifyConcat(rest, pb);
    ClassifySingle(t);
    NumericNotAlpha(t);
    var x, y := ClassifyTerms(rest), ClassifyTerms(pb);
    if IsAlpha(t) {
      assert x.0 + ({t} + y.0) == x.0 + y.0 + {t};
    } else {
      assert x.0 + ({} + y.0) == x.0 + y.0;
    }
  }

  /** Repeated spaces inside a line do not change the parsed equation. */
  lemma ExtraSpaceIgnored(a: string, b: string)
    requires |a| > 0 && !IsSpace(a[0])
    requires |b| > 0 && !IsSpace(b[|b| - 1])
    ensures FromString(a + " " + b) == FromString(a + "  " + b)
  {
    var s1, s2 := a + " " + b, a + "  " + b;
    assert s1[0] == a[0] && s2[0] == a[0];
    StripUnchanged(s1);
    StripUnchanged(s2);
    SplitAroundSpaces(a, b);
    EmptyTokenIgnored(Split(a, ' '), Split(b, ' '));
  }

  /** An empty piece after the symbol (from a doubled space) is skipped. */
  lemma EmptyTokenIgnored(pa: seq<string>, pb: seq<string>)
    requires |pa| >= 1
    ensures FromTokens(pa + pb) == FromTokens(pa + ([""] + pb))
  {
    assert pa + ([""] + pb) == pa + [""] + pb;
    TokenInserted(pa, "", pb);
  }

  lemma SplitAroundSpaces(a: string, b: string)
    ensures Split(a + " " + b, ' ') == Split(a, ' ') + Split(b, ' ')
    ensures Split(a + "  " + b, ' ') == Split(a, ' ') + ([""] + Split(b, ' '))
  {
    assert a + " " + b == a + [' '] + b;
    assert a + "  " + b == a + [' '] + ([' '] + b);
    assert [' '] + b == "" + [' '] + b;
    SplitAtSeparator(a, b, ' ');
    SplitAtSeparator(a, [' '] + b, ' ');
    SplitAtSeparator("", b, ' ');
  }

  /** The `+ u1 + u2 ...` tail of a rendered equation. */
  function PlusTerms(vars: seq<string>): (r: seq<string>)
  {
    if |vars| == 0 then [] else ["+", vars[0]] + PlusTerms(vars[1..])
  }

  /** Renders `symbol = constant + v1 + v2 ...` with single spaces. */
  function Format(symbol: string, constant: nat, vars: seq<string>): (r: string)
  {
    Join(FormatTokens(symbol, constant, vars), ' ')
  }

  lemma {:induction false} PlusTermsShape(vars: seq<string>)
    requires forall k :: 0 <= k < |vars| ==> IsAlpha(vars[k])
    ensures forall k :: 0 <= k < |PlusTerms(vars)| ==> PlusTerms(vars)[k] == "+" || IsAlpha(PlusTerms(vars)[k])
    ensures |vars| > 0 ==> |PlusTerms(vars)| > 0 && PlusTerms(vars)[|PlusTerms(vars)| - 1] == vars[|vars| - 1]
    decreases |vars|
  {
    if |vars| > 0 {
      PlusTermsShape(vars[1..]);
    }
  }

  /** The `+` separators contribute nothing; the words become the unknowns. */
  lemma {:induction false} PlusTermsClassified(vars: seq<string>)
    requires forall k :: 0 <= k < |vars| ==> IsAlpha(vars[k])
    ensures ClassifyTerms(PlusTerms(vars)) == ((set v | v in vars), 0)
    decreases |vars|
  {
    if |vars| == 0 {
      assert (set v | v in vars) == {};
    } else {
      var v0 := vars[0];
      var rest := set v | v in vars[1..];
      PlusTermsClassified(vars[1..]);
      assert PlusTerms(vars) == ["+", v0] + PlusTerms(vars[1..]);
      ClassifyConcat(["+", v0], PlusTerms(vars[1..]));
      assert ["+", v0] == ["+"] + [v0];
      ClassifyConcat(["+"], [v0]);
      ClassifySingle("+");
      ClassifySingle(v0);
      assert !IsDigit('+') && !IsLetter('+');
      assert TokenTerms("+") == ({}, 0);
      NumericNotAlpha(v0);
      assert TokenTerms(v0) == ({v0}, 0);
      assert {} + {v0} == {v0};
      assert ClassifyTerms(["+", v0]) == ({v0}, 0);
      assert (set v | v in vars) == {v0} + rest;
    }
  }

  lemma AlphaHasNoSpace(t: string)
    requires IsAlpha(t)
    ensures ' ' !in t
  {
    forall k | 0 <= k < |t|
      ensures t[k] != ' '
    {
      assert IsLetter(t[k]);
    }
  }

  lemma NumeralHasNoSpace(n: nat)
    ensures ' ' !in Numeral(n)
  {
    var t := Numeral(n);
    NumeralRoundTrip(n);
    forall k | 0 <= k < |t|
      ensures t[k] != ' '
    {
      assert IsDigit(t[k]);
    }
  }

  /** Parsing a rendered equation gives back its symbol, the set of its
      unknowns and its constant. */
  lemma FormatRoundTrip(symbol: string, constant: nat, vars: seq<string>)
    requires IsAlpha(symbol)
    requires forall k :: 0 <= k < |vars| ==> IsAlpha(vars[k])
    ensures FromString(Format(symbol, constant, vars)) == Equation(symbol, (set v | v in vars), constant)
  {
    var tokens := FormatTokens(symbol, constant, vars);
    FormatSplitsIntoTokens(symbol, constant, vars);
    FormatTokensClassified(symbol, constant, vars);
  }

  function FormatTokens(symbol: string, constant: nat, vars: seq<string>): (r: seq<string>)
  {
    [symbol, "=", Numeral(constant)] + PlusTerms(vars)
  }

  /** The rendered line needs no stripping and splits back into its tokens. */
  lemma FormatSplitsIntoTokens(symbol: string, constant: nat, vars: seq<string>)
    requires IsAlpha(symbol)
    requires forall k :: 0 <= k < |vars| ==> IsAlpha(vars[k])
    ensures Split(Strip(Format(symbol, constant, vars)), ' ') == FormatTokens(symbol, constant, vars)
  {
    var num := Numeral(constant);
    var tail := PlusTerms(vars);
    var tokens := FormatTokens(symbol, constant, vars);
    var line := Join(tokens, ' ');
    NumeralRoundTrip(constant);
    PlusTermsShape(vars);
    forall k | 0 <= k < |tokens|
      ensures ' ' !in tokens[k]
    {
      if k == 0 {
        AlphaHasNoSpace(symbol);
      } else if k == 2 {
        NumeralHasNoSpace(constant);
      } else if k > 2 {
        assert tokens[k] == tail[k - 3];
        if tail[k - 3] != "+" {
          AlphaHasNoSpace(tail[k - 3]);
        }
      }
    }
    JoinFirst(tokens, ' ');
    JoinLast(tokens, ' ');
    assert IsLetter(symbol[0]);
    if |vars| > 0 {
      assert tokens[|tokens| - 1] == vars[|vars| - 1];
      assert IsLetter(vars[|vars| - 1][|vars[|vars| - 1]| - 1]);
    } else {
      assert tokens[|tokens| - 1] == num;
      assert IsDigit(num[|num| - 1]);
    }
    StripUnchanged(line);
    SplitJoin(tokens, ' ');
  }

  /** The tokens of a rendered line classify to its unknowns and constant. */
  lemma FormatTokensClassified(symbol: string, constant: nat, vars: seq<string>)
    requires forall k :: 0 <= k < |vars| ==> IsAlpha(vars[k])
    ensures FromTokens(FormatTokens(symbol, constant, vars)) == Equation(symbol, (set v | v in vars), constant)
  {
    var num := Numeral(constant);
    var tail := PlusTerms(vars);
    var tokens := FormatTokens(symbol, constant, vars);
    NumeralRoundTrip(constant);
    PlusTermsClassified(vars);
    assert tokens[1..] == ["=", num] + tail;
    ClassifyConcat(["=", num], tail);
    assert ["=", num] == ["="] + [num];
    ClassifyConcat(["="], [num]);
    assert !IsDigit('=') && !IsLetter('=');
    ClassifySingle("=");
    ClassifySingle(num);
    NumericNotAlpha(num);
    assert TokenTerms("=") == ({}, 0);
    assert TokenTerms(num) == ({}, constant);
    assert ClassifyTerms(["=", num]) == ({}, constant);
    assert {} + (set v | v in vars) == (set v | v in vars);
  }

  // ---------------------------------------------------------------------
  // Evaluation
  // ---------------------------------------------------------------------

  /** `Equation.solve_equation`: fails when an unknown has no supplied value;
      otherwise adds to the constant the supplied values of the unknowns,
      walking the supplied map and skipping keys that are not unknowns. */
  method SolveEquation(eq: Equation, provided: map<string, int>) returns (r: Result<int>)
    ensures r.Failure? <==> !(eq.unknowns <= provided.Keys)
    ensures r.Failure? ==> r.error == MissingUnknowns(eq, provided.Keys)
    ensures r.Success? ==> eq.unknowns <= provided.Keys && r.value == eq.sumConstants + SumOf(eq.unknowns, provided)
  {
    if !(eq.unknowns <= provided.Keys) {
      return Failure(MissingUnknowns(eq, provided.Keys));
    }
    var sumUnknowns := 0;
    var pending := provided.Keys;
    assert eq.unknowns * pending == eq.unknowns;
    while pending != {}
      invariant pending <= provided.Keys
      invariant sumUnknowns + SumOf(eq.unknowns * pending, provided) == SumOf(eq.unknowns, provided)
      decreases |pending|
    {
      var key :| key in pending;
      if key in eq.unknowns {
        SumOfRemove(eq.unknowns * pending, provided, key);
        assert eq.unknowns * pending - {key} == eq.unknowns * (pending - {key});
        sumUnknowns := sumUnknowns + provided[key];
      } else {
        assert eq.unknowns * pending == eq.unknowns * (pending - {key});
      }
      pending := pending - {key};
    }
    return Success(eq.sumConstants + sumUnknowns);
  }
}

=== FILE: examples.dfy ===
/**
 The worked examples of the repository's tests, restated about the model:
 `x = y + 4`, `y = 1`, `z = x + 2` costs `{x: 1, y: 0, z: 2}` and solves
 to `{x: 5, y: 1, z: 7}`; `x = y + 1`, `y = 1` solves to `{x: 2, y: 1}`;
 and the single-equation evaluations of the `Equation` tests.
 */
module Examples {
  import opened Sums
  import opened Sorting
  import opened Equations
  import opened Dependencies
  import opened CostCaches
  import opened Solutions
  import opened SetEquations

  /** Three different symbols. */
  predicate Distinct(x: string, y: string, z: string) {
    x != y && y != z && x != z
  }

  /** `x = y + 4`, `y = 1`, `z = x + 2`, for any three different symbols
      `x`, `y`, `z`. */
  function Chain(x: string, y: string, z: string): (r: map<string, Equation>)
  {
    map[x := Equation(x, {y}, 4), y := Equation(y, {}, 1), z := Equation(z, {x}, 2)]
  }

  function ChainRank(x: string, y: string, z: string): (r: map<string, nat>)
  {
    map[y := 0, x := 1, z := 2]
  }

  lemma ChainRanked(x: string, y: string, z: string)
    requires Distinct(x, y, z)
    ensures Ranked(Chain(x, y, z), ChainRank(x, y, z)) && Closed(Chain(x, y, z))
  {
  }

  /** The costs by the definition: `y` has no unknowns, `x` waits on `y`,
      `z` on `x`. */
  lemma ChainCosts(x: string, y: string, z: string)
    requires Distinct(x, y, z)
    ensures Ranked(Chain(x, y, z), ChainRank(x, y, z))
    ensures ClosedFrom(Chain(x, y, z), ChainRank(x, y, z), y) && Cost(Chain(x, y, z), ChainRank(x, y, z), y) == 0
    ensures ClosedFrom(Chain(x, y, z), ChainRank(x, y, z), x) && Cost(Chain(x, y, z), ChainRank(x, y, z), x) == 1
    ensures ClosedFrom(Chain(x, y, z), ChainRank(x, y, z), z) && Cost(Chain(x, y, z), ChainRank(x, y, z), z) == 2
  {
    var e, r := Chain(x, y, z), ChainRank(x, y, z);
    ChainRanked(x, y, z);
    assert ClosedFrom(e, r, y);
    assert ClosedFrom(e, r, x);
    assert ClosedFrom(e, r, z);
    CostIsSumOfTerms(e, r, y);
    CostIsSumOfTerms(e, r, x);
    CostIsSumOfTerms(e, r, z);
    SumOfSingleton(y, CostTerms(e, r, {y}));
    SumOfSingleton(x, CostTerms(e, r, {x}));
  }

  /** A cache holding the true cost of every symbol of the set, and
      nothing else, is `{x: 1, y: 0, z: 2}`; walked in ascending order of
      cost it reads `y`, `x`, `z`. */
  lemma ChainCache(x: string, y: string, z: string, c: CostCache)
    requires Distinct(x, y, z) && Ranked(Chain(x, y, z), ChainRank(x, y, z))
    requires CacheTrue(Chain(x, y, z), ChainRank(x, y, z), c) && c.cost.Keys == Chain(x, y, z).Keys
    ensures c.cost == map[x := 1, y := 0, z := 2]
    ensures Costed(c.order, c.cost) && SortedByCost(c.order, c.cost) ==> c.order == [y, x, z]
  {
    ChainCosts(x, y, z);
    assert c.cost[x] == 1 && c.cost[y] == 0 && c.cost[z] == 2;
    assert c.cost.Keys == {x, y, z};
    if Costed(c.order, c.cost) && SortedByCost(c.order, c.cost) {
      OrderOfThree(c, x, y, z);
    }
  }

  /** A well-formed cache over three keys of costs 1, 0 and 2, sorted by
      cost, lists them as `y`, `x`, `z`. */
  lemma OrderOfThree(c: CostCache, x: string, y: string, z: string)
    requires Distinct(x, y, z) && WellFormed(c) && c.cost == map[x := 1, y := 0, z := 2]
    requires Costed(c.order, c.cost) && SortedByCost(c.order, c.cost)
    ensures c.order == [y, x, z]
  {
    assert x in c.order && y in c.order && z in c.order;
    var i :| 0 <= i < |c.order| && c.order[i] == x;
    var j :| 0 <= j < |c.order| && c.order[j] == y;
    var k :| 0 <= k < |c.order| && c.order[k] == z;
    assert j < i < k by {
      assert c.cost[c.order[j]] < c.cost[c.order[i]] < c.cost[c.order[k]];
    }
    CacheOfThree(c, x, y, z);
    assert j == 0 && i == 1 && k == 2;
    assert c.order == [c.order[0], c.order[1], c.order[2]];
  }

  /** A well-formed cache over three keys lists exactly three entries. */
  lemma CacheOfThree(c: CostCache, x: string, y: string, z: string)
    requires Distinct(x, y, z) && WellFormed(c) && c.cost.Keys == {x, y, z}
    ensures |c.order| == 3
  {
    forall a
      ensures multiset(c.order)[a] == multiset{x, y, z}[a]
    {
      assert a in c.order <==> a in multiset(c.order);
    }
    assert multiset(c.order) == multiset{x, y, z};
    assert |c.order| == |multiset(c.order)|;
  }

  /** The cost pass from an empty cache fills it with `{x: 1, y: 0, z: 2}`
      and leaves it in the order `y`, `x`, `z`. */
  method ChainCostPass(x: string, y: string, z: string) returns (outcome: Outcome, cache: CostCache)
    requires Distinct(x, y, z)
    ensures outcome.Pass?
    ensures cache.cost == map[x := 1, y := 0, z := 2]
    ensures cache.order == [y, x, z]
  {
    ChainRanked(x, y, z);
    ghost var filled;
    outcome, cache, filled := ComputeAllSymbolsCost(Chain(x, y, z), ChainRank(x, y, z), [x, y, z], CostCache([], map[]));
    ChainCache(x, y, z, cache);
  }

  /** `x = 1`, `y = 2`: two symbols that cost 0 and depend on nothing. */
  function Twins(x: string, y: string): (r: map<string, Equation>)
  {
    map[x := Equation(x, {}, 1), y := Equation(y, {}, 2)]
  }

  /** Symbols of equal cost keep the order in which the mapping lists them:
      walked as `y`, `x`, the cost pass leaves the cache as `y`, `x`. */
  method TiesKeepWalkOrder(x: string, y: string) returns (outcome: Outcome, cache: CostCache)
    requires x != y
    ensures outcome.Pass?
    ensures cache.cost == map[x := 0, y := 0]
    ensures cache.order == [y, x]
  {
    var rank := map[x := 0, y := 0];
    assert Ranked(Twins(x, y), rank) && Closed(Twins(x, y));
    ghost var filled;
    outcome, cache, filled := ComputeAllSymbolsCost(Twins(x, y), rank, [y, x], CostCache([], map[]));
    TwinsOrder(x, y, rank, cache, filled);
  }

  /** A walk of `y`, `x` over the twins fills the cache as `y`, `x`, and the
      stable sort keeps that order. */
  lemma TwinsOrder(x: string, y: string, rank: map<string, nat>, cache: CostCache, filled: seq<string>)
    requires x != y && Ranked(Twins(x, y), rank)
    requires CacheTrue(Twins(x, y), rank, cache) && cache.cost.Keys == {x, y}
    requires WellFormed(CostCache(filled, cache.cost))
    requires WalkOrder(Twins(x, y), rank, [y, x], 0, filled)
    requires Costed(filled, cache.cost) && cache.order == SortByCost(filled, cache.cost)
    ensures cache.cost == map[x := 0, y := 0]
    ensures cache.order == [y, x]
  {
    TwinsCost(x, y, rank, cache);
    TwinsFilled(x, y, rank, CostCache(filled, cache.cost));
    SortTwins(x, y, cache.cost);
  }

  lemma TwinsCost(x: string, y: string, rank: map<string, nat>, cache: CostCache)
    requires x != y && Ranked(Twins(x, y), rank)
    requires CacheTrue(Twins(x, y), rank, cache) && cache.cost.Keys == {x, y}
    ensures cache.cost == map[x := 0, y := 0]
  {
    CostOrdersDependencies(Twins(x, y), rank, x);
    CostOrdersDependencies(Twins(x, y), rank, y);
  }

  /** Walked as `y`, `x`, the twins are written as `y`, `x`: `y` reaches
      nothing but itself, so `x` cannot come first. */
  lemma TwinsFilled(x: string, y: string, rank: map<string, nat>, c: CostCache)
    requires x != y && Ranked(Twins(x, y), rank)
    requires WellFormed(c) && c.cost.Keys == {x, y}
    requires WalkOrder(Twins(x, y), rank, [y, x], 0, c.order)
    ensures c.order == [y, x]
  {
    CacheOfTwo(c, x, y);
    assert WrittenInTurn(Twins(x, y), rank, [y, x], c.order, 0);
    var m :| 0 <= m < 2 && Reaches(Twins(x, y), rank, [y, x][m], c.order[0])
             && ReachedBefore(Twins(x, y), rank, [y, x], m, c.order[..0]);
    assert m != 1 by {
      assert [y, x][0] == y && Reaches(Twins(x, y), rank, y, y) && y !in c.order[..0];
    }
    assert Twins(x, y)[y].unknowns == {};
    assert c.order[0] == y;
    assert c.order[1] in c.cost;
  }

  lemma SortTwins(x: string, y: string, cost: map<string, nat>)
    requires cost == map[x := 0, y := 0]
    ensures Costed([y, x], cost) && SortByCost([y, x], cost) == [y, x]
  {
    assert [y, x][..1] == [y];
    assert SortByCost([y], cost) == [y];
  }

  /** A well-formed cache over two keys lists exactly two entries. */
  lemma CacheOfTwo(c: CostCache, x: string, y: string)
    requires x != y && WellFormed(c) && c.cost.Keys == {x, y}
    ensures |c.order| == 2
  {
    forall a
      ensures multiset(c.order)[a] == multiset{x, y}[a]
    {
      assert a in c.order <==> a in multiset(c.order);
    }
    assert multiset(c.order) == multiset{x, y};
    assert |c.order| == |multiset(c.order)|;
  }

  /** `a = x + 1`, `b = 2`, `x = 3`: `a` waits on `x`, and `b` and `x`
      cost 0. */
  function Trio(a: string, b: string, x: string): (r: map<string, Equation>)
  {
    map[a := Equation(a, {x}, 1), b := Equation(b, {}, 2), x := Equation(x, {}, 3)]
  }

  /** Walked as `a`, `b`, `x` from an empty cache, the turn of `a` writes
      `x` before the turn of `b` comes, so the tie between `x` and `b`
      sorts as `x`, `b`, and the cache ends as `x`, `b`, `a`. */
  method TurnsGroupKeys(a: string, b: string, x: string) returns (outcome: Outcome, cache: CostCache)
    requires Distinct(a, b, x)
    ensures outcome.Pass?
    ensures cache.cost == map[a := 1, b := 0, x := 0]
    ensures cache.order == [x, b, a]
  {
    var rank := map[a := 1, b := 0, x := 0];
    assert Ranked(Trio(a, b, x), rank) && Closed(Trio(a, b, x));
    assert forall k :: k in [a, b, x] <==> k in Symbols(Trio(a, b, x));
    ghost var filled;
    outcome, cache, filled := ComputeAllSymbolsCost(Trio(a, b, x), rank, [a, b, x], CostCache([], map[]));
    TrioOrder(a, b, x, rank, cache, filled);
  }

  lemma TrioOrder(a: string, b: string, x: string, rank: map<string, nat>, cache: CostCache, filled: seq<string>)
    requires Distinct(a, b, x) && Ranked(Trio(a, b, x), rank)
    requires CacheTrue(Trio(a, b, x), rank, cache) && cache.cost.Keys == {a, b, x}
    requires WellFormed(CostCache(filled, cache.cost))
    requires WalkOrder(Trio(a, b, x), rank, [a, b, x], 0, filled)
    requires Costed(filled, cache.cost) && cache.order == SortByCost(filled, cache.cost)
    ensures cache.cost == map[a := 1, b := 0, x := 0]
    ensures cache.order == [x, b, a]
  {
    TrioCost(a, b, x, rank, cache);
    TrioFilled(a, b, x, rank, CostCache(filled, cache.cost));
    SortTrio(a, b, x, cache.cost);
  }

  lemma TrioCost(a: string, b: string, x: string, rank: map<string, nat>, cache: CostCache)
    requires Distinct(a, b, x) && Ranked(Trio(a, b, x), rank)
    requires CacheTrue(Trio(a, b, x), rank, cache) && cache.cost.Keys == {a, b, x}
    ensures cache.cost == map[a := 1, b := 0, x := 0]
  {
    var e := Trio(a, b, x);
    CostOrdersDependencies(e, rank, b);
    CostOrdersDependencies(e, rank, x);
    CostIsSumOfTerms(e, rank, a);
    SumOfSingleton(x, CostTerms(e, rank, {x}));
    assert cache.cost[a] == 1 && cache.cost[b] == 0 && cache.cost[x] == 0;
  }

  /** Walked as `a`, `b`, `x`, the trio is written with `b` last: only `b`
      reaches `b`, and its turn comes once everything `a` reaches, `a`
      and `x`, holds an entry. */
  lemma TrioFilled(a: string, b: string, x: string, rank: map<string, nat>, c: CostCache)
    requires Distinct(a, b, x) && Ranked(Trio(a, b, x), rank)
    requires WellFormed(c) && c.cost.Keys == {a, b, x}
    requires WalkOrder(Trio(a, b, x), rank, [a, b, x], 0, c.order)
    ensures c.order == [a, x, b] || c.order == [x, a, b]
  {
    var e := Trio(a, b, x);
    CacheOfThree(c, a, b, x);
    DistinctIndices(c.order);
    assert b in c.order;
    var n :| 0 <= n < 3 && c.order[n] == b;
    assert WrittenInTurn(e, rank, [a, b, x], c.order, n);
    var m :| 0 <= m < 3 && Reaches(e, rank, [a, b, x][m], c.order[n])
             && ReachedBefore(e, rank, [a, b, x], m, c.order[..n]);
    assert e[a].unknowns == {x} && e[x].unknowns == {};
    assert m == 1 by {
      assert !Reaches(e, rank, x, b);
      assert !Reaches(e, rank, a, b);
    }
    assert Reaches(e, rank, x, x) && Reaches(e, rank, a, x) && Reaches(e, rank, a, a);
    assert a in c.order[..n] && x in c.order[..n];
    var i :| 0 <= i < n && c.order[i] == a;
    var j :| 0 <= j < n && c.order[j] == x;
    assert n == 2;
    assert c.order == [c.order[0], c.order[1], c.order[2]];
  }

  lemma SortTrio(a: string, b: string, x: string, cost: map<string, nat>)
    requires Distinct(a, b, x) && cost == map[a := 1, b := 0, x := 0]
    ensures Costed([a, x, b], cost) && SortByCost([a, x, b], cost) == [x, b, a]
    ensures Costed([x, a, b], cost) && SortByCost([x, a, b], cost) == [x, b, a]
  {
    InsertAfterTie(a, b, x, cost);
    SortPair(a, x, cost);
    SortThenInsert(a, x, b, cost);
    SortPair(x, a, cost);
    SortThenInsert(x, a, b, cost);
  }

  /** Sorting three keys inserts the last into the sorted first two. */
  lemma SortThenInsert(p: string, q: string, r: string, cost: map<string, nat>)
    requires p in cost && q in cost && r in cost
    ensures Costed([p, q], cost) && SortByCost([p, q, r], cost) == InsertByCost(SortByCost([p, q], cost), r, cost)
  {
    var xs := [p, q, r];
    assert xs[..|xs| - 1] == [p, q] && xs[|xs| - 1] == r;
  }

  /** Two keys sort by cost, the earlier first on a tie. */
  lemma SortPair(p: string, q: string, cost: map<string, nat>)
    requires p in cost && q in cost
    ensures SortByCost([p, q], cost) == if cost[q] < cost[p] then [q, p] else [p, q]
  {
    assert [p, q][..1] == [p] && [p][..0] == [];
    assert SortByCost([p], cost) == [p];
    assert [p][1..] == [];
  }

  lemma InsertAfterTie(a: string, b: string, x: string, cost: map<string, nat>)
    requires Distinct(a, b, x) && cost == map[a := 1, b := 0, x := 0]
    ensures InsertByCost([x, a], b, cost) == [x, b, a]
  {
    assert [x, a][1..] == [a];
    assert InsertByCost([a], b, cost) == [b, a];
  }

  /** The only solution of the set is `{x: 5, y: 1, z: 7}`. */
  lemma ChainSolution(x: string, y: string, z: string, values: map<string, int>)
    requires Distinct(x, y, z) && Satisfies(Chain(x, y, z), values)
    ensures values == map[x := 5, y := 1, z := 7]
  {
    var e := Chain(x, y, z);
    assert e[y].unknowns == {} && e[x].unknowns == {y} && e[z].unknowns == {x};
    SumOfSingleton(y, values);
    SumOfSingleton(x, values);
    assert values.Keys == {x, y, z};
  }

  /** Solving from an empty cache yields `{x: 5, y: 1, z: 7}`. */
  method ChainSolve(x: string, y: string, z: string) returns (r: Result<map<string, int>>)
    requires Distinct(x, y, z)
    ensures r == Success(map[x := 5, y := 1, z := 7])
  {
    ChainRanked(x, y, z);
    var cache;
    ghost var filled;
    r, cache, filled := SolveEqSet(Chain(x, y, z), ChainRank(x, y, z), [x, y, z], CostCache([], map[]));
    ChainSolution(x, y, z, r.value);
  }

  /** `x = y + 1`, `y = 1`. */
  function Pair(x: string, y: string): (r: map<string, Equation>)
  {
    map[x := Equation(x, {y}, 1), y := Equation(y, {}, 1)]
  }

  /** The only solution of the pair is `{x: 2, y: 1}`. */
  lemma PairSolution(x: string, y: string, values: map<string, int>)
    requires x != y && Satisfies(Pair(x, y), values)
    ensures values == map[x := 2, y := 1]
  {
    var e := Pair(x, y);
    assert e[y].unknowns == {} && e[x].unknowns == {y};
    SumOfSingleton(y, values);
    assert values.Keys == {x, y};
  }

  /** Solving `x = y + 1`, `y = 1` from an empty cache yields `{x: 2, y: 1}`. */
  method PairSolve(x: string, y: string) returns (r: Result<map<string, int>>)
    requires x != y
    ensures r == Success(map[x := 2, y := 1])
  {
    var rank := map[y := 0, x := 1];
    assert Ranked(Pair(x, y), rank) && Closed(Pair(x, y));
    var cache;
    ghost var filled;
    r, cache, filled := SolveEqSet(Pair(x, y), rank, [x, y], CostCache([], map[]));
    PairSolution(x, y, r.value);
  }

  /** A set holding only `z = x + y + 2` fails, at the cost pass, on a
      symbol it never declares. */
  method UndeclaredDependencyFails(x: string, y: string, z: string) returns (r: Result<map<string, int>>)
    requires Distinct(x, y, z)
    ensures r.Failure? && r.error.UndeclaredSymbol? && r.error.symbol in {x, y}
  {
    var e := map[z := Equation(z, {x, y}, 2)];
    var rank := map[x := 0, y := 0, z := 1];
    assert Ranked(e, rank);
    assert !Closed(e) by {
      assert x in e[z].unknowns && x !in e;
    }
    var cache;
    ghost var filled;
    r, cache, filled := SolveEqSet(e, rank, [z], CostCache([], map[]));
  }

  /** `z = 2 + x + y` with only `w` and `x` supplied raises the
      missing-unknowns error. */
  method MissingUnknownRaises() returns (r: Result<int>)
    ensures r.Failure? && r.error.MissingUnknowns?
  {
    r := SolveEquation(Equation("z", {"x", "y"}, 2), map["w" := 3, "x" := 5]);
    assert "y" !in map["w" := 3, "x" := 5];
  }

  /** `x = 7 + y` with `y = 2` evaluates to 9. */
  method OneUnknownEvaluates() returns (r: Result<int>)
    ensures r == Success(9)
  {
    var provided := map["y" := 2];
    r := SolveEquation(Equation("x", {"y"}, 7), provided);
    SumOfSingleton("y", provided);
  }

  /** `z = 7 + y + offset` with `y = 2`, `offset = 10` evaluates to 19. */
  method LongUnknownEvaluates() returns (r: Result<int>)
    ensures r == Success(19)
  {
    var provided := map["y" := 2, "offset" := 10];
    r := SolveEquation(Equation("z", {"y", "offset"}, 7), provided);
    SumOfRemove({"y", "offset"}, provided, "y");
    assert {"y", "offset"} - {"y"} == {"offset"};
    SumOfSingleton("offset", provided);
  }

  /** `x = 2 + y + z` with `y = 2`, `z = 1` evaluates to 5. */
  method TwoUnknownsEvaluate() returns (r: Result<int>)
    ensures r == Success(5)
  {
    var provided := map["y" := 2, "z" := 1];
    r := SolveEquation(Equation("x", {"y", "z"}, 2), provided);
    SumOfRemove({"y", "z"}, provided, "y");
    assert {"y", "z"} - {"y"} == {"z"};
    SumOfSingleton("z", provided);
  }
}

=== FILE: loading.dfy ===
/**
 Building a set of equations from text (`SetEquations.from_txt` in
 equation_solver/tools/structures.py, without the file read): the content
 is split on line feeds, every non-empty line is parsed, and its equation
 is stored under its own symbol, replacing any earlier one.
 */
module Loading {
  import opened Text
  import opened Equations

  /** The loop of `from_txt` over the lines, as the dict it has built after
      the last of them. */
  function FromLines(lines: seq<string>): (equations: map<string, Equation>)
    ensures forall k :: k in equations ==> equations[k].symbol == k
    decreases |lines|
  {
    if |lines| == 0 then map[]
    else
      var before := FromLines(lines[..|lines| - 1]);
      var line := lines[|lines| - 1];
      if line == "" then before
      else before[FromString(line).symbol := FromString(line)]
  }

  /** `from_txt` on the content of the file: the content is split on line
      feeds, and a symbol has an equation exactly when a non-empty line
      declares it. */
  function FromText(content: string): (r: map<string, Equation>)
    ensures forall k :: k in r ==> r[k].symbol == k
    ensures forall k :: k in r <==> DeclaredIn(Split(content, '\n'), k)
  {
    AllDeclaredByALine(Split(content, '\n'));
    FromLines(Split(content, '\n'))
  }

  /** A line declares a symbol. */
  ghost predicate Declares(lines: seq<string>, j: int, k: string)
    requires 0 <= j < |lines|
  {
    lines[j] != "" && FromString(lines[j]).symbol == k
  }

  /** Some non-empty line declares `k`. */
  ghost predicate DeclaredIn(lines: seq<string>, k: string) {
    exists j :: 0 <= j < |lines| && Declares(lines, j, k)
  }

  /** The symbols of the set are exactly the symbols of the non-empty
      lines. */
  lemma {:induction false} DeclaredByALine(lines: seq<string>, k: string)
    ensures k in FromLines(lines) <==> DeclaredIn(lines, k)
    decreases |lines|
  {
    if |lines| > 0 {
      var n := |lines| - 1;
      var init := lines[..n];
      DeclaredByALine(init, k);
      assert forall j :: 0 <= j < n ==> lines[j] == init[j];
      if Declares(lines, n, k) {
        assert k in FromLines(lines);
      } else {
        assert k in FromLines(lines) <==> k in FromLines(init);
        assert DeclaredIn(lines, k) <==> DeclaredIn(init, k) by {
          if DeclaredIn(init, k) {
            var j :| 0 <= j < |init| && Declares(init, j, k);
            assert Declares(lines, j, k);
          }
          if DeclaredIn(lines, k) {
            var j :| 0 <= j < |lines| && Declares(lines, j, k);
            assert Declares(init, j, k);
          }
        }
      }
    }
  }

  lemma AllDeclaredByALine(lines: seq<string>)
    ensures forall k :: k in FromLines(lines) <==> DeclaredIn(lines, k)
  {
    forall k
      ensures k in FromLines(lines) <==> DeclaredIn(lines, k)
    {
      DeclaredByALine(lines, k);
    }
  }

  /** The key order of the dict that `from_txt` builds: a symbol takes its
      place at the first non-empty line that declares it, and a later line
      that declares it again replaces its equation without moving it. */
  function DeclarationOrder(lines: seq<string>): (r: seq<string>)
    ensures forall k :: k in r <==> k in FromLines(lines)
    ensures forall i, j :: 0 <= i < j < |r| ==> r[i] != r[j]
    ensures |lines| > 0 ==> DeclarationOrder(lines[..|lines| - 1]) <= r
    decreases |lines|
  {
    if |lines| == 0 then []
    else
      var before := DeclarationOrder(lines[..|lines| - 1]);
      var line := lines[|lines| - 1];
      if line == "" || FromString(line).symbol in before then before
      else before + [FromString(line).symbol]
  }

  /** Line `j` is the first non-empty line that declares `k`. */
  ghost predicate FirstDeclares(lines: seq<string>, j: int, k: string)
    requires 0 <= j < |lines|
  {
    Declares(lines, j, k) && forall i :: 0 <= i < j ==> !Declares(lines, i, k)
  }

  /** The key order follows the lines: of two symbols, the one declared
      first comes first. */
  lemma {:induction false} DeclarationOrderFollowsLines(lines: seq<string>, p: int, q: int, jp: int, jq: int)
    requires 0 <= p < q < |DeclarationOrder(lines)|
    requires 0 <= jp < |lines| && FirstDeclares(lines, jp, DeclarationOrder(lines)[p])
    requires 0 <= jq < |lines| && FirstDeclares(lines, jq, DeclarationOrder(lines)[q])
    ensures jp < jq
    decreases |lines|
  {
    var n := |lines| - 1;
    var init := lines[..n];
    var before, r := DeclarationOrder(init), DeclarationOrder(lines);
    EarlierKeyEarlierLine(lines, p, jp);
    if q < |before| {
      EarlierKeyEarlierLine(lines, q, jq);
      FirstDeclaresInInit(lines, jp, r[p]);
      FirstDeclaresInInit(lines, jq, r[q]);
      DeclarationOrderFollowsLines(init, p, q, jp, jq);
    } else {
      assert r[q] !in before;
      DeclaredByALine(init, r[q]);
      if jq < n {
        assert Declares(init, jq, r[q]);
      }
    }
  }

  /** The key order of the whole dict follows the lines: for any two keys,
      the one listed first is the one whose first declaring line comes
      first. */
  lemma KeysInDeclarationOrder(lines: seq<string>)
    ensures forall p, q, jp, jq ::
              0 <= p < q < |DeclarationOrder(lines)| && 0 <= jp < |lines| && 0 <= jq < |lines|
              && FirstDeclares(lines, jp, DeclarationOrder(lines)[p]) && FirstDeclares(lines, jq, DeclarationOrder(lines)[q])
              ==> jp < jq
  {
    forall p, q, jp, jq |
      0 <= p < q < |DeclarationOrder(lines)| && 0 <= jp < |lines| && 0 <= jq < |lines|
      && FirstDeclares(lines, jp, DeclarationOrder(lines)[p]) && FirstDeclares(lines, jq, DeclarationOrder(lines)[q])
      ensures jp < jq
    {
      DeclarationOrderFollowsLines(lines, p, q, jp, jq);
    }
  }

  /** A symbol already placed by the lines before the last one is first
      declared by one of them. */
  lemma EarlierKeyEarlierLine(lines: seq<string>, p: int, j: int)
    requires |lines| > 0 && 0 <= p < |DeclarationOrder(lines[..|lines| - 1])|
    requires 0 <= j < |lines| && FirstDeclares(lines, j, DeclarationOrder(lines[..|lines| - 1])[p])
    ensures p < |DeclarationOrder(lines)| && DeclarationOrder(lines)[p] == DeclarationOrder(lines[..|lines| - 1])[p]
    ensures j < |lines| - 1
  {
    var init := lines[..|lines| - 1];
    var k := DeclarationOrder(init)[p];
    DeclaredByALine(init, k);
    var i :| 0 <= i < |init| && Declares(init, i, k);
    assert Declares(lines, i, k);
  }

  /** A first declaration before the last line is a first declaration of
      the lines before it. */
  lemma FirstDeclaresInInit(lines: seq<string>, j: int, k: string)
    requires 0 <= j < |lines| - 1 && FirstDeclares(lines, j, k)
    ensures FirstDeclares(lines[..|lines| - 1], j, k)
  {
    var init := lines[..|lines| - 1];
    assert init[j] == lines[j];
    forall i | 0 <= i < j
      ensures !Declares(init, i, k)
    {
      assert init[i] == lines[i] && !Declares(lines, i, k);
    }
  }

  /** The equation stored for a symbol is the one parsed from the last
      non-empty line that declares it. */
  lemma {:induction false} LastDefinitionWins(lines: seq<string>, j: int)
    requires 0 <= j < |lines| && lines[j] != ""
    requires forall i :: j < i < |lines| ==> !Declares(lines, i, FromString(lines[j]).symbol)
    ensures FromString(lines[j]).symbol in FromLines(lines)
    ensures FromLines(lines)[FromString(lines[j]).symbol] == FromString(lines[j])
    decreases |lines|
  {
    var n := |lines| - 1;
    var eq := FromString(lines[j]);
    if j < n {
      var init := lines[..n];
      assert init[j] == lines[j];
      forall i | j < i < |init|
        ensures !Declares(init, i, eq.symbol)
      {
        assert init[i] == lines[i] && !Declares(lines, i, eq.symbol);
      }
      LastDefinitionWins(init, j);
      assert !Declares(lines, n, eq.symbol);
      LastLineElsewhere(lines, eq.symbol);
    }
  }

  /** A last line that does not declare `k` leaves the entry of `k` as
      the lines before it built it. */
  lemma LastLineElsewhere(lines: seq<string>, k: string)
    requires |lines| > 0 && !Declares(lines, |lines| - 1, k)
    ensures k in FromLines(lines) <==> k in FromLines(lines[..|lines| - 1])
    ensures k in FromLines(lines) ==> FromLines(lines)[k] == FromLines(lines[..|lines| - 1])[k]
  {
    var line := lines[|lines| - 1];
    if line != "" {
      var eq := FromString(line);
      assert eq.symbol != k;
      assert FromLines(lines) == FromLines(lines[..|lines| - 1])[eq.symbol := eq];
    }
  }

  /** Lines that hold no line feed are read back exactly from their join:
      reading a file written line by line stores the same equations. */
  lemma FromTextOfLines(lines: seq<string>)
    requires |lines| >= 1
    requires forall k :: 0 <= k < |lines| ==> '\n' !in lines[k]
    ensures FromText(Join(lines, '\n')) == FromLines(lines)
  {
    SplitJoin(lines, '\n');
  }

  /** Only the empty string is skipped: a line of spaces is not empty, and
      it declares the empty symbol with no unknowns and no constant. */
  lemma WhitespaceLineDeclaresEmptySymbol(line: string)
    requires line != "" && forall k :: 0 <= k < |line| ==> IsSpace(line[k])
    ensures FromString(line) == Equation("", {}, 0)
    ensures "" in FromLines([line]) && FromLines([line])[""] == Equation("", {}, 0)
  {
    assert Split(Strip(line), ' ') == [""];
    assert [""][1..] == [];
    assert [line][..0] == [];
  }
}

=== FILE: set_equations.dfy ===
/**
 A set of equations keyed by symbol and its solver (the `SetEquations`
 class of equation_solver/tools/structures.py): the memoised cost pass that
 fills the cost cache, the stable re-sort of that cache by cost, and the
 evaluation of every symbol in ascending cost order.
 */
module SetEquations {
  import opened Sums
  import opened Equations
  import opened Sorting
  import opened Dependencies
  import opened CostCaches
  import opened Solutions

  /** `SetEquations.symbols`: the keys of the mapping, the symbols that
      have an equation. */
  function Symbols(equations: map<string, Equation>): (r: set<string>)
  {
    equations.Keys
  }

  // ---------------------------------------------------------------------
  // The cost pass
  // ---------------------------------------------------------------------

  /** `_compute_symbol_cost`: a cached symbol returns its cached cost; a
      symbol without an equation raises `KeyError`; a symbol without
      unknowns costs 0; otherwise `SumDependencyCosts` sums over the
      unknowns. `stack` holds the symbols whose pass is running further up
      the recursion; their entries may hold partial totals. */
  method ComputeSymbolCost(equations: map<string, Equation>, ghost rank: map<string, nat>, ghost stack: set<string>,
                           cache: CostCache, s: string)
    returns (r: Result<nat>, cache': CostCache)
    requires Ranked(equations, rank) && s in rank && Above(rank, stack, s)
    requires TrueExcept(equations, rank, cache, stack) && DependenciesCached(equations, cache, stack)
    ensures r.Success? <==> ClosedFrom(equations, rank, s)
    ensures r.Failure? ==> r.error.UndeclaredSymbol? && r.error.symbol !in equations
    ensures r.Failure? ==> r.error.symbol == s || Undeclared(equations, r.error.symbol)
    ensures r.Failure? ==> Reaches(equations, rank, s, r.error.symbol)
    ensures s in cache.cost ==> r == Success(cache.cost[s]) && cache' == cache
    ensures r.Success? ==> r.value == Cost(equations, rank, s) && s in cache'.cost && cache'.cost[s] == r.value
    ensures r.Success? ==> TrueExcept(equations, rank, cache', stack) && DependenciesCached(equations, cache', stack)
    ensures AppendsReached(equations, rank, s, cache.order, cache'.order)
    decreases rank[s], 2
  {
    if s in cache.cost {
      return Success(cache.cost[s]), cache;
    }
    if s !in equations {
      return Failure(UndeclaredSymbol(s)), cache;
    }
    if equations[s].unknowns == {} {
      assert ClosedFrom(equations, rank, s);
      CostOrdersDependencies(equations, rank, s);
      cache' := Store(cache, s, 0);
      return Success(0), cache';
    }
    PushUncached(equations, rank, cache, stack, s);
    r, cache' := SumDependencyCosts(equations, rank, stack, cache, s);
  }

  /** The loop of `_compute_symbol_cost`: walks the unknowns of `s` in
      whatever order the set yields them, adds the cost of each plus one,
      and writes the running total to the cache after each unknown, so a
      failure part-way leaves a partial total behind. */
  method SumDependencyCosts(equations: map<string, Equation>, ghost rank: map<string, nat>, ghost stack: set<string>,
                            cache: CostCache, s: string)
    returns (r: Result<nat>, cache': CostCache)
    requires Ranked(equations, rank) && s in equations && Above(rank, stack, s)
    requires s !in cache.cost && equations[s].unknowns != {}
    requires TrueExcept(equations, rank, cache, stack + {s}) && DependenciesCached(equations, cache, stack + {s})
    ensures r.Success? <==> ClosedFrom(equations, rank, s)
    ensures r.Failure? ==> r.error.UndeclaredSymbol? && Undeclared(equations, r.error.symbol)
    ensures r.Failure? ==> Reaches(equations, rank, s, r.error.symbol)
    ensures r.Success? ==> r.value == Cost(equations, rank, s) && s in cache'.cost && cache'.cost[s] == r.value
    ensures r.Success? ==> TrueExcept(equations, rank, cache', stack) && DependenciesCached(equations, cache', stack)
    ensures AppendsReached(equations, rank, s, cache.order, cache'.order)
    decreases rank[s], 1
  {
    var deps := equations[s].unknowns;
    var total: nat := 0;
    var pending := deps;
    ghost var done: set<string> := {};
    cache' := cache;
    SummedNothing(equations, rank, s);
    while pending != {}
      invariant pending <= deps && done <= deps && done !! pending
      invariant forall x :: x in deps ==> x in done || x in pending
      invariant SumLoop(equations, rank, stack, s, cache.order, done, total, cache')
      decreases |pending|
    {
      var d :| d in pending;
      var step, next := AddDependencyCost(equations, rank, stack, cache', s, done, total, d);
      if step.Failure? {
        AppendsChain(equations, rank, s, cache.order, cache'.order, next.order);
        return step, next;
      }
      SumAdvances(equations, rank, stack, s, cache.order, done, total, cache', d, step.value, next);
      total, cache' := step.value, next;
      pending := pending - {d};
      done := done + {d};
    }
    assert done == deps;
    SumFinished(equations, rank, cache', stack, s, total);
    return Success(total), cache';
  }

  /** One turn of the loop of `_compute_symbol_cost`: the cost of the
      unknown `d` plus one is added to the running `total`, which is
      written to the cache entry of `s`. */
  method AddDependencyCost(equations: map<string, Equation>, ghost rank: map<string, nat>, ghost stack: set<string>,
                           cache: CostCache, s: string, ghost done: set<string>, total: nat, d: string)
    returns (r: Result<nat>, cache': CostCache)
    requires Ranked(equations, rank) && s in equations && Above(rank, stack, s)
    requires d in equations[s].unknowns && d !in done
    requires Summed(equations, rank, s, done, total) && done <= cache.cost.Keys
    requires TrueExcept(equations, rank, cache, stack + {s}) && DependenciesCached(equations, cache, stack + {s})
    ensures r.Failure? ==> r.error.UndeclaredSymbol? && Undeclared(equations, r.error.symbol) && !ClosedFrom(equations, rank, s)
    ensures r.Failure? ==> Reaches(equations, rank, s, r.error.symbol)
    ensures r.Success? ==> Summed(equations, rank, s, done + {d}, r.value)
    ensures r.Success? ==> s in cache'.cost && cache'.cost[s] == r.value && done + {d} <= cache'.cost.Keys
    ensures r.Success? ==> TrueExcept(equations, rank, cache', stack + {s})
    ensures r.Success? ==> DependenciesCached(equations, cache', stack + {s})
    ensures AppendsReached(equations, rank, s, cache.order, cache'.order)
    decreases rank[s], 0
  {
    AboveDependency(equations, rank, stack, s, d);
    var sub, next := ComputeSymbolCost(equations, rank, stack + {s}, cache, d);
    AppendsThrough(equations, rank, s, d, cache.order, next.order);
    if sub.Failure? {
      FailsThrough(equations, rank, s, d, sub.error.symbol);
      return sub, next;
    }
    KeysKept(cache, next);
    StepStored(equations, rank, stack, s, done, total, d, sub.value, cache.order, next);
    var sum := total + sub.value + 1;
    return Success(sum), Store(next, s, sum);
  }

  /** `_compute_all_symbols_cost`: runs the cost pass for every declared
      symbol, walking `symbols`, the key order of the mapping, then rebuilds
      the cache in stable ascending order of cost. `filled` is the order of
      the cache before the rebuild: the keys it held on entry, then the keys
      the walk wrote, each reached from the symbol whose turn wrote it. */
  method ComputeAllSymbolsCost(equations: map<string, Equation>, ghost rank: map<string, nat>, symbols: seq<string>,
                               cache: CostCache)
    returns (outcome: Outcome, cache': CostCache, ghost filled: seq<string>)
    requires Ranked(equations, rank)
    requires forall k :: k in symbols <==> k in Symbols(equations)
    requires CacheTrue(equations, rank, cache) && DependenciesCached(equations, cache, {})
    ensures outcome.Pass? <==> Closed(equations)
    ensures outcome.Fail? ==> outcome.error.UndeclaredSymbol? && Undeclared(equations, outcome.error.symbol)
    ensures outcome.Pass? ==> CacheTrue(equations, rank, cache') && cache'.cost.Keys == equations.Keys
    ensures outcome.Pass? ==> Costed(cache'.order, cache'.cost) && SortedByCost(cache'.order, cache'.cost)
    ensures outcome.Pass? ==> WellFormed(CostCache(filled, cache'.cost)) && cache.order <= filled
    ensures outcome.Pass? ==> Costed(filled, cache'.cost) && cache'.order == SortByCost(filled, cache'.cost)
    ensures outcome.Pass? ==> WalkOrder(equations, rank, symbols, |cache.order|, filled)
  {
    var c := cache;
    var i := 0;
    assert forall m :: 0 <= m < |symbols| ==> symbols[m] in equations by {
      forall m | 0 <= m < |symbols|
        ensures symbols[m] in equations
      {
        assert symbols[m] in symbols;
      }
    }
    while i < |symbols|
      invariant 0 <= i <= |symbols|
      invariant CacheTrue(equations, rank, c) && DependenciesCached(equations, c, {})
      invariant forall p :: 0 <= p < i ==> symbols[p] in c.cost
      invariant cache.order <= c.order
      invariant WalkOrder(equations, rank, symbols, |cache.order|, c.order)
      decreases |symbols| - i
    {
      var sub, next := CostTurn(equations, rank, symbols, i, |cache.order|, c);
      if sub.Failure? {
        ClosedIffClosedFromAll(equations, rank);
        return Fail(sub.error), next, next.order;
      }
      c := next;
      i := i + 1;
    }
    WalkCoversAll(equations, rank, symbols, c);
    filled := c.order;
    cache' := SortCache(c);
    return Pass, cache', filled;
  }

  /** One turn of the walk of `_compute_all_symbols_cost`: the cost pass
      for `symbols[i]`, taken once every earlier symbol holds an entry. */
  method CostTurn(equations: map<string, Equation>, ghost rank: map<string, nat>, symbols: seq<string>, i: int,
                  ghost start: nat, c: CostCache)
    returns (sub: Result<nat>, next: CostCache)
    requires Ranked(equations, rank) && forall m :: 0 <= m < |symbols| ==> symbols[m] in equations
    requires 0 <= i < |symbols| && start <= |c.order|
    requires CacheTrue(equations, rank, c) && DependenciesCached(equations, c, {})
    requires forall p :: 0 <= p < i ==> symbols[p] in c.cost
    requires WalkOrder(equations, rank, symbols, start, c.order)
    ensures sub.Success? <==> ClosedFrom(equations, rank, symbols[i])
    ensures sub.Failure? ==> sub.error.UndeclaredSymbol? && Undeclared(equations, sub.error.symbol)
    ensures sub.Success? ==> CacheTrue(equations, rank, next) && DependenciesCached(equations, next, {})
    ensures sub.Success? ==> forall p :: 0 <= p <= i ==> symbols[p] in next.cost
    ensures sub.Success? ==> c.order <= next.order && WalkOrder(equations, rank, symbols, start, next.order)
  {
    sub, next := ComputeSymbolCost(equations, rank, {}, c, symbols[i]);
    if sub.Success? {
      TurnDone(equations, rank, symbols, i, start, c, next);
    } else {
      assert sub.error.symbol != symbols[i];
    }
  }

  /** A successful turn of `symbols[i]` leaves every symbol up to it with
      an entry and keeps the walk order. */
  lemma TurnDone(equations: map<string, Equation>, rank: map<string, nat>, symbols: seq<string>, i: int,
                 start: nat, c: CostCache, next: CostCache)
    requires Ranked(equations, rank) && forall m :: 0 <= m < |symbols| ==> symbols[m] in equations
    requires 0 <= i < |symbols| && start <= |c.order|
    requires WellFormed(c) && DependenciesCached(equations, c, {})
    requires forall p :: 0 <= p < i ==> symbols[p] in c.cost
    requires WalkOrder(equations, rank, symbols, start, c.order)
    requires WellFormed(next) && symbols[i] in next.cost
    requires AppendsReached(equations, rank, symbols[i], c.order, next.order)
    ensures forall p :: 0 <= p <= i ==> symbols[p] in next.cost
    ensures c.order <= next.order && WalkOrder(equations, rank, symbols, start, next.order)
  {
    WalkStep(equations, rank, symbols, i, start, c, next);
    KeysKept(c, next);
  }

  /** Once the walk has given every symbol an entry, the cache covers
      exactly the declared symbols and the set is closed. */
  lemma WalkCoversAll(equations: map<string, Equation>, rank: map<string, nat>, symbols: seq<string>, c: CostCache)
    requires Ranked(equations, rank) && forall k :: k in symbols <==> k in Symbols(equations)
    requires CacheTrue(equations, rank, c)
    requires forall p :: 0 <= p < |symbols| ==> symbols[p] in c.cost
    ensures c.cost.Keys == equations.Keys && Closed(equations)
  {
    forall x | x in equations
      ensures x in c.cost
    {
      assert x in Symbols(equations);
      var p :| 0 <= p < |symbols| && symbols[p] == x;
    }
    CacheCoversAll(equations, rank, c);
  }

  // ---------------------------------------------------------------------
  // Solving the set
  // ---------------------------------------------------------------------

  /** `solve_eq_set`: runs the cost pass, then walks the cache in ascending
      order of cost and evaluates each symbol against the solutions found so
      far: `solve_equation` for a symbol with unknowns, its constant for one
      without. The missing-unknowns error of `solve_equation` never arises;
      the only failure is the missing key of the cost pass. */
  method SolveEqSet(equations: map<string, Equation>, ghost rank: map<string, nat>, symbols: seq<string>,
                    cache: CostCache)
    returns (r: Result<map<string, int>>, cache': CostCache, ghost filled: seq<string>)
    requires Ranked(equations, rank)
    requires forall k :: k in symbols <==> k in Symbols(equations)
    requires CacheTrue(equations, rank, cache) && DependenciesCached(equations, cache, {})
    ensures r.Success? <==> Closed(equations)
    ensures r.Failure? ==> r.error.UndeclaredSymbol? && Undeclared(equations, r.error.symbol)
    ensures r.Success? ==> Satisfies(equations, r.value)
    ensures r.Success? ==> CacheTrue(equations, rank, cache') && cache'.cost.Keys == equations.Keys
    ensures r.Success? ==> Costed(filled, cache'.cost) && cache'.order == SortByCost(filled, cache'.cost)
    ensures r.Success? ==> cache.order <= filled && WalkOrder(equations, rank, symbols, |cache.order|, filled)
  {
    var outcome, c;
    outcome, c, filled := ComputeAllSymbolsCost(equations, rank, symbols, cache);
    if outcome.Fail? {
      return Failure(outcome.error), c, filled;
    }
    var solutions := SolveInOrder(equations, rank, c);
    return Success(solutions), c, filled;
  }

  /** The loop of `solve_eq_set`: evaluates the symbols in the order of the
      sorted cache, each against the solutions found before it. */
  method SolveInOrder(equations: map<string, Equation>, ghost rank: map<string, nat>, c: CostCache)
    returns (solutions: map<string, int>)
    requires Ranked(equations, rank) && CacheTrue(equations, rank, c) && c.cost.Keys == equations.Keys
    requires Costed(c.order, c.cost) && SortedByCost(c.order, c.cost)
    ensures Satisfies(equations, solutions)
  {
    solutions := map[];
    var i := 0;
    while i < |c.order|
      invariant SolvedUpTo(equations, rank, c, i, solutions)
      decreases |c.order| - i
    {
      var value := SolveNext(equations, rank, c, i, solutions);
      SolvedOneMore(equations, rank, c, i, solutions, value);
      solutions := solutions[c.order[i] := value];
      i := i + 1;
    }
    SolvedAll(equations, rank, c, solutions);
  }

  /** One turn of the loop of `solve_eq_set`: evaluates the symbol at
      position `i` of the sorted cache against the solutions of the
      symbols before it. */
  method SolveNext(equations: map<string, Equation>, ghost rank: map<string, nat>, c: CostCache, i: int,
                   solutions: map<string, int>)
    returns (value: int)
    requires Ranked(equations, rank) && CacheTrue(equations, rank, c) && c.cost.Keys == equations.Keys
    requires Costed(c.order, c.cost) && SortedByCost(c.order, c.cost)
    requires 0 <= i < |c.order|
    requires forall j :: 0 <= j < i ==> c.order[j] in solutions
    requires TrueValues(equations, rank, solutions)
    ensures c.order[i] in equations && ClosedFrom(equations, rank, c.order[i])
    ensures value == Value(equations, rank, c.order[i])
  {
    var s := c.order[i];
    DependenciesBefore(equations, rank, c, i, solutions.Keys);
    var eq := equations[s];
    if eq.unknowns != {} {
      var v := SolveEquation(eq, solutions);
      assert v.Success?;
      value := v.value;
    } else {
      value := eq.sumConstants;
    }
    ValueFromKnown(equations, rank, solutions, s);
  }

  /** The state of the loop of `solve_eq_set` after `i` symbols: each of
      them holds a value, and every value held is the true one. */
  ghost predicate SolvedUpTo(equations: map<string, Equation>, rank: map<string, nat>, c: CostCache, i: int,
                             solutions: map<string, int>)
    requires Ranked(equations, rank)
  {
    && 0 <= i <= |c.order|
    && (forall j :: 0 <= j < i ==> c.order[j] in solutions)
    && TrueValues(equations, rank, solutions)
  }

  /** Recording the true value of the symbol at position `i` advances the
      loop by one symbol. */
  lemma SolvedOneMore(equations: map<string, Equation>, rank: map<string, nat>, c: CostCache, i: int,
                      solutions: map<string, int>, v: int)
    requires Ranked(equations, rank) && SolvedUpTo(equations, rank, c, i, solutions) && i < |c.order|
    requires c.order[i] in equations && ClosedFrom(equations, rank, c.order[i])
    requires v == Value(equations, rank, c.order[i])
    ensures SolvedUpTo(equations, rank, c, i + 1, solutions[c.order[i] := v])
  {
    StoreValue(equations, rank, solutions, c.order[i], v);
  }

  /** Recording the value of `s` keeps every entry a true value. */
  lemma StoreValue(equations: map<string, Equation>, rank: map<string, nat>, solutions: map<string, int>, s: string, v: int)
    requires Ranked(equations, rank) && TrueValues(equations, rank, solutions)
    requires s in equations && ClosedFrom(equations, rank, s) && v == Value(equations, rank, s)
    ensures TrueValues(equations, rank, solutions[s := v])
  {
  }

  /** Once every symbol of the cache has its true value, the values solve
      the set. */
  lemma SolvedAll(equations: map<string, Equation>, rank: map<string, nat>, c: CostCache, solutions: map<string, int>)
    requires Ranked(equations, rank) && WellFormed(c) && c.cost.Keys == equations.Keys
    requires forall j :: 0 <= j < |c.order| ==> c.order[j] in solutions
    requires TrueValues(equations, rank, solutions)
    ensures Satisfies(equations, solutions)
  {
    forall k | k in equations
      ensures k in solutions
    {
      var j :| 0 <= j < |c.order| && c.order[j] == k;
    }
    forall k | k in solutions
      ensures k in equations && ClosedFrom(equations, rank, k)
    {
      assert solutions[k] == Value(equations, rank, k);
    }
    ClosedIffClosedFromAll(equations, rank);
    SatisfiesIffValues(equations, rank, solutions);
  }
}

=== FILE: solutions.dfy ===
/**
 What it means to solve a set of equations: the value of every symbol, as
 a definition by recursion over the dependency graph, and the equations a
 solution must satisfy. A set has a solution exactly when it is closed, and
 then the solution is unique.
 */
module Solutions {
  import opened Sums
  import opened Equations
  import opened Dependencies

  /** The value of `s`: its constant plus the values of its unknowns. */
  ghost function Value(equations: map<string, Equation>, rank: map<string, nat>, s: string): (r: int)
    requires Ranked(equations, rank) && s in rank && ClosedFrom(equations, rank, s)
    decreases rank[s]
  {
    var deps := equations[s].unknowns;
    equations[s].sumConstants + SumOf(deps, map d | d in deps :: Value(equations, rank, d))
  }

  /** `values` solves the set: it has one value per declared symbol, and
      each is the constant of that symbol's equation plus the values of its
      unknowns. */
  ghost predicate Satisfies(equations: map<string, Equation>, values: map<string, int>) {
    && values.Keys == equations.Keys
    && forall s :: s in equations ==>
         equations[s].unknowns <= values.Keys
         && values[s] == equations[s].sumConstants + SumOf(equations[s].unknowns, values)
  }

  /** `values` holds the value of every symbol it has an entry for. */
  ghost predicate TrueValues(equations: map<string, Equation>, rank: map<string, nat>, values: map<string, int>)
    requires Ranked(equations, rank)
  {
    forall k {:trigger values[k]} :: k in values ==>
      k in rank && ClosedFrom(equations, rank, k) && values[k] == Value(equations, rank, k)
  }

  /** The value of a symbol is its constant plus the entries of any map
      that already holds the true values of its unknowns. */
  lemma ValueFromKnown(equations: map<string, Equation>, rank: map<string, nat>, values: map<string, int>, s: string)
    requires Ranked(equations, rank) && s in rank && ClosedFrom(equations, rank, s)
    requires TrueValues(equations, rank, values) && equations[s].unknowns <= values.Keys
    ensures Value(equations, rank, s) == equations[s].sumConstants + SumOf(equations[s].unknowns, values)
  {
    var deps := equations[s].unknowns;
    SumOfAgree(deps, map d | d in deps :: Value(equations, rank, d), values);
  }

  /** A solution covers a closed set and agrees with `Value` everywhere;
      conversely the table of values of a closed set is a solution. So a
      set has a solution exactly when it is closed, and only one. */
  lemma SatisfiesIffValues(equations: map<string, Equation>, rank: map<string, nat>, values: map<string, int>)
    requires Ranked(equations, rank)
    ensures Satisfies(equations, values) <==>
      && Closed(equations)
      && values.Keys == equations.Keys
      && forall s :: s in equations ==> ClosedFrom(equations, rank, s) && values[s] == Value(equations, rank, s)
  {
    ClosedIffClosedFromAll(equations, rank);
    if Satisfies(equations, values) {
      forall s | s in equations
        ensures ClosedFrom(equations, rank, s) && values[s] == Value(equations, rank, s)
      {
        SatisfiesValue(equations, rank, values, s);
      }
    } else if Closed(equations) && values.Keys == equations.Keys
              && forall s :: s in equations ==> ClosedFrom(equations, rank, s) && values[s] == Value(equations, rank, s) {
      forall s | s in equations
        ensures values[s] == equations[s].sumConstants + SumOf(equations[s].unknowns, values)
      {
        ValueFromKnown(equations, rank, values, s);
      }
    }
  }

  /** Every entry of a solution is the value of its symbol. */
  lemma {:induction false} SatisfiesValue(equations: map<string, Equation>, rank: map<string, nat>, values: map<string, int>, s: string)
    requires Ranked(equations, rank) && Satisfies(equations, values) && s in equations
    ensures ClosedFrom(equations, rank, s) && values[s] == Value(equations, rank, s)
    decreases rank[s]
  {
    var deps := equations[s].unknowns;
    forall d | d in deps
      ensures ClosedFrom(equations, rank, d) && values[d] == Value(equations, rank, d)
    {
      SatisfiesValue(equations, rank, values, d);
    }
    SumOfAgree(deps, values, map d | d in deps :: Value(equations, rank, d));
  }
}

=== FILE: sorting.dfy ===
/**
 The stable sort by cost that `_compute_all_symbols_cost` applies to the
 cost cache (`sorted(..., key=lambda item: item[1])`): symbols are ordered
 by non-decreasing cost and symbols of equal cost keep their relative order.
 */
module Sorting {

  /** Every element of `xs` has a cost. */
  predicate Costed(xs: seq<string>, cost: map<string, nat>) {
    forall k :: 0 <= k < |xs| ==> xs[k] in cost
  }

  predicate SortedByCost(xs: seq<string>, cost: map<string, nat>)
    requires Costed(xs, cost)
  {
    forall i, j :: 0 <= i < j < |xs| ==> cost[xs[i]] <= cost[xs[j]]
  }

  /** The elements of `xs` whose cost is `v`, in their order in `xs`. */
  function WithCost(xs: seq<string>, cost: map<string, nat>, v: nat): (r: seq<string>)
    requires Costed(xs, cost)
  {
    if |xs| == 0 then []
    else (if cost[xs[0]] == v then [xs[0]] else []) + WithCost(xs[1..], cost, v)
  }

  /** Inserts `x` into a sorted sequence after every element whose cost is
      not greater than its own. */
  function InsertByCost(sorted: seq<string>, x: string, cost: map<string, nat>): (r: seq<string>)
    requires Costed(sorted, cost) && x in cost
    ensures Costed(r, cost)
    ensures multiset(r) == multiset(sorted) + multiset{x}
  {
    if |sorted| == 0 then [x]
    else if cost[x] < cost[sorted[0]] then [x] + sorted
    else
      assert sorted == [sorted[0]] + sorted[1..];
      [sorted[0]] + InsertByCost(sorted[1..], x, cost)
  }

  /** Insertion keeps every element at or above a bound that `x` and all of
      `sorted` respect. */
  lemma {:induction false} InsertByCostAbove(sorted: seq<string>, x: string, cost: map<string, nat>, b: int)
    requires Costed(sorted, cost) && x in cost
    requires b <= cost[x] && forall k :: 0 <= k < |sorted| ==> b <= cost[sorted[k]]
    ensures forall k :: 0 <= k < |InsertByCost(sorted, x, cost)| ==> b <= cost[InsertByCost(sorted, x, cost)[k]]
    decreases |sorted|
  {
    if |sorted| > 0 && cost[x] >= cost[sorted[0]] {
      InsertByCostAbove(sorted[1..], x, cost, b);
    }
  }

  /** Insertion into a sorted sequence leaves it sorted. */
  lemma {:induction false} InsertByCostSorted(sorted: seq<string>, x: string, cost: map<string, nat>)
    requires Costed(sorted, cost) && x in cost
    requires SortedByCost(sorted, cost)
    ensures SortedByCost(InsertByCost(sorted, x, cost), cost)
    decreases |sorted|
  {
    if |sorted| > 0 && cost[x] >= cost[sorted[0]] {
      var rest := InsertByCost(sorted[1..], x, cost);
      InsertByCostSorted(sorted[1..], x, cost);
      InsertByCostAbove(sorted[1..], x, cost, cost[sorted[0]]);
      SortedCons(sorted[0], rest, cost);
    }
  }

  /** A sorted sequence stays sorted under an element no costlier than any
      of its own. */
  lemma SortedCons(h: string, t: seq<string>, cost: map<string, nat>)
    requires h in cost && Costed(t, cost) && SortedByCost(t, cost)
    requires forall k :: 0 <= k < |t| ==> cost[h] <= cost[t[k]]
    ensures Costed([h] + t, cost) && SortedByCost([h] + t, cost)
  {
    var r := [h] + t;
    forall i, j | 0 <= i < j < |r|
      ensures cost[r[i]] <= cost[r[j]]
    {
      if i > 0 {
        assert r[i] == t[i - 1] && r[j] == t[j - 1];
      }
    }
  }

  /** Insertion sort by cost, consuming `xs` from the front. */
  function SortByCost(xs: seq<string>, cost: map<string, nat>): (r: seq<string>)
    requires Costed(xs, cost)
    ensures Costed(r, cost)
    ensures SortedByCost(r, cost)
    ensures multiset(r) == multiset(xs)
    decreases |xs|
  {
    if |xs| == 0 then []
    else
      var init := xs[..|xs| - 1];
      assert xs == init + [xs[|xs| - 1]];
      InsertByCostSorted(SortByCost(init, cost), xs[|xs| - 1], cost);
      InsertByCost(SortByCost(init, cost), xs[|xs| - 1], cost)
  }

  lemma {:induction false} WithCostConcat(a: seq<string>, b: seq<string>, cost: map<string, nat>, v: nat)
    requires Costed(a, cost) && Costed(b, cost)
    ensures Costed(a + b, cost)
    ensures WithCost(a + b, cost, v) == WithCost(a, cost, v) + WithCost(b, cost, v)
    decreases |a|
  {
    if |a| == 0 {
      assert a + b == b;
    } else {
      assert (a + b)[1..] == a[1..] + b;
      WithCostConcat(a[1..], b, cost, v);
    }
  }

  /** Nothing of cost `v` sits among elements that all cost more than `v`. */
  lemma {:induction false} WithCostAbove(xs: seq<string>, cost: map<string, nat>, v: nat)
    requires Costed(xs, cost)
    requires forall k :: 0 <= k < |xs| ==> cost[xs[k]] > v
    ensures WithCost(xs, cost, v) == []
    decreases |xs|
  {
    if |xs| > 0 {
      WithCostAbove(xs[1..], cost, v);
    }
  }

  /** Insertion places `x` after every element of its own cost. */
  lemma {:induction false} InsertByCostStable(sorted: seq<string>, x: string, cost: map<string, nat>, v: nat)
    requires Costed(sorted, cost) && x in cost
    requires SortedByCost(sorted, cost)
    ensures WithCost(InsertByCost(sorted, x, cost), cost, v) == WithCost(sorted, cost, v) + WithCost([x], cost, v)
    decreases |sorted|
  {
    assert [x][1..] == [];
    if |sorted| == 0 {
    } else if cost[x] < cost[sorted[0]] {
      InsertInFrontStable(sorted, x, cost, v);
    } else {
      var rest := InsertByCost(sorted[1..], x, cost);
      InsertByCostStable(sorted[1..], x, cost, v);
      assert InsertByCost(sorted, x, cost) == [sorted[0]] + rest;
      InsertFurtherStable(sorted, rest, x, cost, v);
    }
  }

  lemma InsertInFrontStable(sorted: seq<string>, x: string, cost: map<string, nat>, v: nat)
    requires Costed(sorted, cost) && x in cost
    requires SortedByCost(sorted, cost)
    requires |sorted| > 0 && cost[x] < cost[sorted[0]]
    ensures WithCost([x] + sorted, cost, v) == WithCost(sorted, cost, v) + WithCost([x], cost, v)
  {
    var r := [x] + sorted;
    assert [x][1..] == [];
    assert r[0] == x && r[1..] == sorted;
    if cost[x] == v {
      assert forall k :: 0 <= k < |sorted| ==> cost[sorted[0]] <= cost[sorted[k]];
      WithCostAbove(sorted, cost, v);
    }
  }

  lemma InsertFurtherStable(sorted: seq<string>, rest: seq<string>, x: string, cost: map<string, nat>, v: nat)
    requires Costed(sorted, cost) && Costed(rest, cost) && x in cost && |sorted| > 0
    requires WithCost(rest, cost, v) == WithCost(sorted[1..], cost, v) + WithCost([x], cost, v)
    ensures Costed([sorted[0]] + rest, cost)
    ensures WithCost([sorted[0]] + rest, cost, v) == WithCost(sorted, cost, v) + WithCost([x], cost, v)
  {
    var head := if cost[sorted[0]] == v then [sorted[0]] else [];
    WithCostCons(sorted[0], rest, cost, v);
    WithCostCons(sorted[0], sorted[1..], cost, v);
    assert [sorted[0]] + sorted[1..] == sorted;
    var a, b := WithCost(sorted[1..], cost, v), WithCost([x], cost, v);
    assert head + (a + b) == (head + a) + b;
  }

  lemma WithCostCons(h: string, t: seq<string>, cost: map<string, nat>, v: nat)
    requires h in cost && Costed(t, cost)
    ensures Costed([h] + t, cost)
    ensures WithCost([h] + t, cost, v) == (if cost[h] == v then [h] else []) + WithCost(t, cost, v)
  {
    assert ([h] + t)[1..] == t;
  }

  /** The sort is stable: for every cost, the symbols of that cost appear in
      the result in the same relative order as in the input. */
  lemma {:induction false} SortByCostStable(xs: seq<string>, cost: map<string, nat>, v: nat)
    requires Costed(xs, cost)
    ensures WithCost(SortByCost(xs, cost), cost, v) == WithCost(xs, cost, v)
    decreases |xs|
  {
    if |xs| > 0 {
      var init, last := xs[..|xs| - 1], xs[|xs| - 1];
      SortByCostStable(init, cost, v);
      InsertByCostStable(SortByCost(init, cost), last, cost, v);
      assert xs == init + [last];
      WithCostConcat(init, [last], cost, v);
    }
  }
}

=== FILE: sums.dfy ===
/**
 Sums of integer values over a finite set of symbols. Python sums over a
 `set` or a `dict` in an order the program does not control; the sum here
 picks its elements in an unspecified order too, and the lemmas show that
 the choice never matters.
 */
module Sums {

  /** The sum of `f[k]` over every `k` in `keys`. */
  ghost function SumOf(keys: set<string>, f: map<string, int>): (r: int)
    requires keys <= f.Keys
    decreases |keys|
  {
    if keys == {} then 0
    else
      var k :| k in keys;
      f[k] + SumOf(keys - {k}, f)
  }

  /** Any element may be taken out first: the sum does not depend on the
      order in which the set is walked. */
  lemma {:induction false} SumOfRemove(keys: set<string>, f: map<string, int>, k: string)
    requires keys <= f.Keys && k in keys
    ensures SumOf(keys, f) == f[k] + SumOf(keys - {k}, f)
    decreases |keys|
  {
    var j :| j in keys && SumOf(keys, f) == f[j] + SumOf(keys - {j}, f);
    if j != k {
      SumOfRemove(keys - {j}, f, k);
      SumOfRemove(keys - {k}, f, j);
      assert keys - {j} - {k} == keys - {k} - {j};
    }
  }

  /** Adding one new element adds its value. */
  lemma SumOfInsert(keys: set<string>, f: map<string, int>, k: string)
    requires keys <= f.Keys && k in f && k !in keys
    ensures SumOf(keys + {k}, f) == f[k] + SumOf(keys, f)
  {
    SumOfRemove(keys + {k}, f, k);
    assert keys + {k} - {k} == keys;
  }

  /** The sum reads `f` only at `keys`: maps that agree there give the same sum. */
  lemma {:induction false} SumOfAgree(keys: set<string>, f: map<string, int>, g: map<string, int>)
    requires keys <= f.Keys && keys <= g.Keys
    requires forall k :: k in keys ==> f[k] == g[k]
    ensures SumOf(keys, f) == SumOf(keys, g)
    decreases |keys|
  {
    if keys != {} {
      var k :| k in keys;
      SumOfRemove(keys, f, k);
      SumOfRemove(keys, g, k);
      SumOfAgree(keys - {k}, f, g);
    }
  }

  /** A sum of non-negative values is at least each of its terms. */
  lemma SumOfAtLeastTerm(keys: set<string>, f: map<string, int>, k: string)
    requires keys <= f.Keys && k in keys
    requires forall j :: j in keys ==> f[j] >= 0
    ensures SumOf(keys, f) >= f[k]
  {
    SumOfRemove(keys, f, k);
    SumOfNonNegative(keys - {k}, f);
  }

  lemma {:induction false} SumOfNonNegative(keys: set<string>, f: map<string, int>)
    requires keys <= f.Keys
    requires forall j :: j in keys ==> f[j] >= 0
    ensures SumOf(keys, f) >= 0
    decreases |keys|
  {
    if keys != {} {
      var k :| k in keys;
      SumOfRemove(keys, f, k);
      SumOfNonNegative(keys - {k}, f);
    }
  }

  lemma SumOfSingleton(k: string, f: map<string, int>)
    requires k in f
    ensures SumOf({k}, f) == f[k]
  {
    SumOfRemove({k}, f, k);
    assert {k} - {k} == {};
  }
}

=== FILE: text.dfy ===
/**
 The string primitives the equation parser relies on: whitespace stripping,
 splitting on a single separator character, and the digit/letter token
 classes. Python's Unicode-aware predicates are narrowed to ASCII.
 */
module Text {

  /** Python's `str.isspace` restricted to ASCII: space, \t \n \v \f \r and
      the four information separators 0x1C-0x1F. */
  predicate IsSpace(c: char) {
    c == ' ' || 9 <= c as int <= 13 || 28 <= c as int <= 31
  }

  /** Every character of `s` in positions `lo .. hi-1` is whitespace. */
  predicate SpacesBetween(s: string, lo: int, hi: int)
    requires 0 <= lo <= hi <= |s|
  {
    forall k :: lo <= k < hi ==> IsSpace(s[k])
  }

  predicate IsDigit(c: char) {
    '0' as int <= c as int <= '9' as int
  }

  predicate IsLetter(c: char) {
    'a' <= c <= 'z' || 'A' <= c <= 'Z'
  }

  /** `str.isnumeric` on ASCII: a non-empty run of decimal digits. */
  predicate IsNumeric(t: string) {
    |t| > 0 && forall k :: 0 <= k < |t| ==> IsDigit(t[k])
  }

  /** `str.isalpha` on ASCII: a non-empty run of letters. */
  predicate IsAlpha(t: string) {
    |t| > 0 && forall k :: 0 <= k < |t| ==> IsLetter(t[k])
  }

  /** No token is both numeric and alphabetic. */
  lemma NumericNotAlpha(t: string)
    ensures !(IsNumeric(t) && IsAlpha(t))
  {
    if |t| > 0 {
      assert IsDigit(t[0]) ==> !IsLetter(t[0]);
    }
  }

  // ---------------------------------------------------------------------
  // Stripping
  // ---------------------------------------------------------------------

  /** `r` is `s` with some whitespace removed from its front and its back. */
  ghost predicate TrimmedFrom(s: string, r: string) {
    exists i, j :: 0 <= i <= j <= |s| && r == s[i..j] && SpacesBetween(s, 0, i) && SpacesBetween(s, j, |s|)
  }

  /** `str.strip()`: drops whitespace at both ends, leaving the infix that
      starts and ends with a non-space character (or nothing). */
  function Strip(s: string): (r: string)
    ensures TrimmedFrom(s, r)
    ensures r == [] || (!IsSpace(r[0]) && !IsSpace(r[|r| - 1]))
    decreases |s|
  {
    if |s| > 0 && IsSpace(s[0]) then
      var r := Strip(s[1..]);
      TrimmedAfterFirst(s, r);
      r
    else if |s| > 0 && IsSpace(s[|s| - 1]) then
      var r := Strip(s[..|s| - 1]);
      TrimmedBeforeLast(s, r);
      r
    else
      TrimmedWhole(s);
      s
  }

  lemma TrimmedWhole(s: string)
    ensures TrimmedFrom(s, s)
  {
    assert s == s[0..|s|] && SpacesBetween(s, 0, 0) && SpacesBetween(s, |s|, |s|);
  }

  lemma TrimmedAfterFirst(s: string, r: string)
    requires |s| > 0 && IsSpace(s[0]) && TrimmedFrom(s[1..], r)
    ensures TrimmedFrom(s, r)
  {
    var t := s[1..];
    var i, j :| 0 <= i <= j <= |t| && r == t[i..j] && SpacesBetween(t, 0, i) && SpacesBetween(t, j, |t|);
    assert r == s[i + 1..j + 1];
    assert SpacesBetween(s, 0, i + 1) && SpacesBetween(s, j + 1, |s|);
  }

  lemma TrimmedBeforeLast(s: string, r: string)
    requires |s| > 0 && IsSpace(s[|s| - 1]) && TrimmedFrom(s[..|s| - 1], r)
    ensures TrimmedFrom(s, r)
  {
    var t := s[..|s| - 1];
    var i, j :| 0 <= i <= j <= |t| && r == t[i..j] && SpacesBetween(t, 0, i) && SpacesBetween(t, j, |t|);
    assert r == s[i..j];
    assert SpacesBetween(s, 0, i) && SpacesBetween(s, j, |s|);
  }

  /** A string already free of whitespace at both ends is left unchanged. */
  lemma {:induction false} StripUnchanged(s: string)
    requires s == [] || (!IsSpace(s[0]) && !IsSpace(s[|s| - 1]))
    ensures Strip(s) == s
  {
  }

  // ---------------------------------------------------------------------
  // Splitting on one separator character
  // ---------------------------------------------------------------------

  /** Python's `s.split(sep)` with an explicit one-character separator:
      every separator ends a piece, so adjacent separators yield empty
      pieces and the result is never empty (`"".split(" ") == [""]`). */
  function Split(s: string, sep: char): (parts: seq<string>)
    ensures |parts| >= 1
    ensures forall k :: 0 <= k < |parts| ==> sep !in parts[k]
  {
    if |s| == 0 then [""]
    else
      var rest := Split(s[1..], sep);
      if s[0] == sep then [""] + rest
      else [[s[0]] + rest[0]] + rest[1..]
  }

  /** `sep.join(parts)`. */
  function Join(parts: seq<string>, sep: char): (r: string)
    requires |parts| >= 1
  {
    if |parts| == 1 then parts[0] else parts[0] + [sep] + Join(parts[1..], sep)
  }

  /** Joining the pieces back with the separator restores the input. */
  lemma {:induction false} JoinSplit(s: string, sep: char)
    ensures Join(Split(s, sep), sep) == s
    decreases |s|
  {
    if |s| > 0 {
      var rest := Split(s[1..], sep);
      JoinSplit(s[1..], sep);
      if s[0] == sep {
        assert ([""] + rest)[1..] == rest;
      } else if |rest| > 1 {
        var parts := [[s[0]] + rest[0]] + rest[1..];
        assert parts[1..] == rest[1..];
        assert Join(rest, sep) == rest[0] + [sep] + Join(rest[1..], sep);
      }
    }
  }

  /** A string without the separator is a single piece. */
  lemma {:induction false} SplitWithoutSeparator(s: string, sep: char)
    requires sep !in s
    ensures Split(s, sep) == [s]
    decreases |s|
  {
    if |s| > 0 {
      SplitWithoutSeparator(s[1..], sep);
      assert [s[0]] + s[1..] == s;
    }
  }

  /** Splitting distributes over a separator: `a + sep + b` splits into the
      pieces of `a` followed by the pieces of `b`. */
  lemma {:induction false} SplitAtSeparator(a: string, b: string, sep: char)
    ensures Split(a + [sep] + b, sep) == Split(a, sep) + Split(b, sep)
    decreases |a|
  {
    var s := a + [sep] + b;
    if |a| == 0 {
      assert s[1..] == b;
    } else {
      assert s[1..] == a[1..] + [sep] + b;
      SplitAtSeparator(a[1..], b, sep);
    }
  }

  /** Pieces free of the separator are recovered exactly by splitting their
      join: Split is the inverse of Join on such pieces. */
  lemma {:induction false} SplitJoin(parts: seq<string>, sep: char)
    requires |parts| >= 1
    requires forall k :: 0 <= k < |parts| ==> sep !in parts[k]
    ensures Split(Join(parts, sep), sep) == parts
    decreases |parts|
  {
    SplitWithoutSeparator(parts[0], sep);
    if |parts| > 1 {
      SplitJoin(parts[1..], sep);
      SplitAtSeparator(parts[0], Join(parts[1..], sep), sep);
      assert [parts[0]] + parts[1..] == parts;
    }
  }

  /** The first character of a join is the first character of its first piece. */
  lemma {:induction false} JoinFirst(parts: seq<string>, sep: char)
    requires |parts| >= 1 && |parts[0]| > 0
    ensures |Join(parts, sep)| > 0 && Join(parts, sep)[0] == parts[0][0]
  {
  }

  /** The last character of a join is the last character of its last piece. */
  lemma {:induction false} JoinLast(parts: seq<string>, sep: char)
    requires |parts| >= 1 && |parts[|parts| - 1]| > 0
    ensures var s := Join(parts, sep); |s| > 0 && s[|s| - 1] == parts[|parts| - 1][|parts[|parts| - 1]| - 1]
    decreases |parts|
  {
    if |parts| > 1 {
      JoinLast(parts[1..], sep);
    }
  }

  // ---------------------------------------------------------------------
  // Decimal numerals
  // ---------------------------------------------------------------------

  /** `int(t)` for a run of ASCII digits, read most significant digit first. */
  function DecimalValue(t: string): (r: nat)
    requires forall k :: 0 <= k < |t| ==> IsDigit(t[k])
  {
    if |t| == 0 then 0
    else
      assert IsDigit(t[|t| - 1]);
      DecimalValue(t[..|t| - 1]) * 10 + (t[|t| - 1] as int - '0' as int)
  }

  function DigitChar(d: nat): (c: char)
    requires d < 10
    ensures IsDigit(c) && c as int - '0' as int == d
  {
    ('0' as int + d) as char
  }

  /** The decimal numeral of a natural number, without leading zeros. */
  function Numeral(n: nat): (r: string)
  {
    if n < 10 then [DigitChar(n)] else Numeral(n / 10) + [DigitChar(n % 10)]
  }

  /** Reading back a numeral gives the number it was written from. */
  lemma {:induction false} NumeralRoundTrip(n: nat)
    ensures IsNumeric(Numeral(n))
    ensures DecimalValue(Numeral(n)) == n
  {
    var t := Numeral(n);
    if n >= 10 {
      NumeralRoundTrip(n / 10);
      assert t[..|t| - 1] == Numeral(n / 10);
    }
  }
}
